=== FILE: README.md ===
# Channel-conversion worker, modelled in Dafny

This project models `FFmpegWorker`, the background worker of the CHNNL
batch converter. The worker walks an input folder of video proxies
(`.mp4`/`.mov`) and probes each file's audio channel count with `ffprobe`.
A file that already has the target count is copied to the output folder.
Any other file is re-encoded by `ffmpeg` with its video stream copied and
its audio converted to AAC with the target count. Along the way the worker
emits `log` lines and one final `finished(processed_count)`. It also emits
a `progress` percentage after each file it copies, fails to copy, or
re-encodes to the end of `ffmpeg`'s output. A file whose probe fails, or
that the flag stops, emits none. Neither does one whose `ffmpeg` cannot be
started or whose output cannot be read. Another thread may call `cancel()` at any
time.

`FFmpegWorker.run` is modelled as a pure function, `Worker.Run(job, dir,
cancelAt)`. Its inputs are:

- the constructor's arguments (`Environment.Job`);
- the world the worker talks to (`Environment.Directory`). This is the
  listing of the input folder plus, for each entry, what `ffprobe`,
  `shutil.copy2` and `ffmpeg` answer;
- the moment `cancel()` takes effect (`cancelAt`).

The run reads the cancellation flag at two places: at the top of the file
loop, and after each line of `ffmpeg` output. These reads are numbered in
the order the run reaches them. `cancelAt == Some(k)` means the flag is up
from read `k` on, and `None` means it is never raised.

The result is an `Outcome` with three parts:

- the trace: every signal emitted and every external effect, each effect
  tagged with the index of its file (probe, copy, spawn, terminate, wait);
- the final `processed_count`;
- how the run ended: completed, cancelled before a file, cancelled during
  a transcode, or left by an exception.

Modules follow the structure of the program:

- `Wrappers`: `Option`.
- `Text`: the pieces of Python string behaviour the worker uses: `strip`,
  `lower`, `endswith`, `join`, `str(int)` and `int(str)`.
- `Paths`: `os.path.join` and `basename`.
- `Environment`: the job and the outside world.
- `Selection`: the extension filter.
- `Planner`: the command lines, the probe's reading, the copy/transcode
  decision and the progress percentage.
- `Worker`: the run itself and `cancel()`.
- Four modules of properties:
  - `FileProperties`: one pass of the loop;
  - `Counting`: the processed count;
  - `ProgressProperties`: the percentages;
  - `Cancellation`: what a raised flag does to a run.

Some behaviours of the code are easy to misread, and the model keeps them
as written:

- A failed probe emits no progress for that file: the `continue` at
  main.py:218 skips the progress line, whereas a failed copy still reaches
  main.py:228.
- `ffmpeg`'s exit status is never read. `wait()` at main.py:244 discards
  it, so a file whose output was read to the end is counted at main.py:245
  even if `ffmpeg` failed.
- An exception from `subprocess.Popen` at main.py:236 (for instance,
  `ffmpeg` missing) is not caught inside the loop. It leaves the whole run
  through the `finally` at main.py:248-249, after `finished` is emitted.
- `finished` carries only the count (main.py:180, 249). Nothing in the
  signal tells a cancelled run apart. The `Ending` of the model does.
- Nothing forces a final 100. A completed run ends on 100 only when its
  last file reported progress (`ProgressProperties.CompletedRunEndsAtHundred`).

A file is *healthy* (`FileProperties.Healthy`) when it can be handled
without a failure. That means its probe yields a channel count. If the count
matches the target, the copy must succeed. Otherwise `ffmpeg` must start and
its output must be read to the end.

## Model

| member | source | states |
|---|---|---|
| Selection.IsVideoName | main.py:199 | A name is accepted exactly when its last four characters are a dot followed by "mp4" or "mov" in any mix of upper and lower case |
| Selection.Select | main.py:199 | The selected entries are exactly the listed entries with an accepted name, in both directions, and never more than were listed |
| Selection.SelectAppend | main.py:199 | Selecting from a concatenation is selecting from each part in turn, so the listing's order is kept |
| Selection.SelectIsSubsequence | main.py:199 | The selection is a subsequence of the listing: entries keep their order and none is invented |
| Text.Lower | main.py:199 | Lower-casing keeps the length, leaves no upper-case ASCII letter, moves each upper-case letter to its lower-case partner and keeps every other character |
| Text.LowerIdempotent | main.py:199 | Lower-casing an already lower-cased name changes nothing |
| Selection.EndsWithFour | main.py:199 | `endswith` of a four-character suffix holds exactly when the last four characters match one by one |
| Paths.Join | main.py:207-208 | A path joined from a folder and a name ends with that name |
| Paths.JoinUnderFolder | main.py:207-208 | For a directory-entry name, the joined path starts with the folder and its base name is the entry's own name, so input and output share the file name |
| Paths.BaseNameAfterSlash | main.py:207-208 | The base name of a path ending in a slash-free name is that name |
| Text.StripIsTrimmedSlice | main.py:215 | `strip()` returns a contiguous slice of its input with no whitespace at either end |
| Text.StripIdempotent | main.py:215 | Stripping twice is stripping once, so the explicit `strip()` before `int()` changes nothing |
| Text.StripSurrounded | main.py:243 | A text without outer whitespace, padded with whitespace on both sides, strips back to itself |
| Text.IntToString | main.py:231 | `str(n)` is in canonical form: digits without a leading zero, with a minus sign only before a non-zero number. It has no surrounding whitespace and reads back as `n` |
| Text.CanonicalDecimalPrinted | main.py:231 | Digits without a leading zero are exactly the printed form of the number they denote |
| Text.IntToStringUnique | main.py:231 | The only canonical text that `int()` reads as `n` is `str(n)`, so canonical form plus the round trip pins `str(n)` down completely |
| Text.NatToDecimal | main.py:231 | A non-negative number prints as a non-empty run of digits with no leading zero, and as "0" exactly for zero |
| Text.DecimalRoundTrip | main.py:231 | The digits printed for a number denote that number |
| Text.IntRoundTrip | main.py:215 | `int()` of a printed number surrounded by whitespace gives the number back |
| Text.IntToStringParses | main.py:215 | `int(str(n)) == n` for every integer |
| Text.SplitJoin | main.py:234 | Splitting a joined list on the separator gives the parts back when no part contains the separator |
| Planner.ProbeChannels | main.py:213-218 | A probe that raises yields no channel count, and printed output yields exactly what Python's `int()` makes of it, failure included |
| Planner.ProbeReadsPrintedCount | main.py:214-215 | Any channel count `ffprobe` prints, with whitespace such as its trailing newline around it, is read back as that count |
| Planner.TranscodeCommand | main.py:231-232 | The `ffmpeg` command is exactly `[ffmpeg, -i, input, -ac, n, -c:v, copy, -c:a, aac, output]`, and its channel argument is canonical text that reads back as the target count, which by `Text.IntToStringUnique` makes it `str(channels)` |
| Planner.Plan | main.py:213-232 | The file is skipped exactly when the probe failed, copied exactly when the probed count equals the target, and otherwise re-encoded with the target-count command |
| Planner.Percent | main.py:228 | The reported percentage lies in 0..100 and is 100 exactly for the last file |
| Planner.PercentMonotone | main.py:246 | A later file never reports a smaller percentage than an earlier one |
| Worker.EchoTextSplits | main.py:234 | The echoed command line ends in a newline, and the rest splits on spaces into the command's arguments when none contains a space |
| Worker.RelayTextStrips | main.py:243 | A line of `ffmpeg` output is logged as its text without the surrounding whitespace or newline |
| Worker.Cancel | main.py:194-195 | `cancel()` leaves the flag raised and the job unchanged |
| Worker.CancelIdempotent | main.py:194-195 | Calling `cancel()` again has no further effect |
| Worker.StaysCancelled | main.py:191-195 | When only `cancel()` acts on the worker between flag reads, a flag once seen raised is seen raised at every later read |
| Worker.CancelPoint | main.py:191-195 | When only `cancel()` acts on the worker between flag reads, there is a single read from which the flag is seen raised: every read `k` sees it exactly when `Flagged(c, k)`, so the `cancelAt` argument of `Run` captures every possible timing of `cancel()` |
| Worker.Drain | main.py:237-243 | Reading `ffmpeg`'s output only ever adds flag reads |
| Worker.DrainLogsOnly | main.py:237-243 | While relaying `ffmpeg`'s output the worker only logs: no progress, no work, no `finished` |
| Worker.Loop | main.py:202-246 | Each file adds at most one to the count, nothing inside the loop emits `finished`, and a failure inside the loop is never the listing's |
| Worker.NoFinishedInFile | main.py:203-246 | One pass counts at most one file, emits no `finished` and never ends the loop by completing it |
| Worker.AttemptContained | main.py:207-246 | Probing and acting on one file counts at most that file and emits no `finished` |
| Worker.ActContained | main.py:220-246 | Acting on a plan counts at most one file and emits no `finished` |
| Worker.TranscodeContained | main.py:231-246 | A transcode counts at most one file and emits no `finished` |
| Worker.TranscodeNoFinished | main.py:231-246 | A transcode emits no `finished` |
| Worker.TranscodeCount | main.py:231-246 | A transcode adds at most one to the count and never ends the loop by completing it |
| Worker.Run | main.py:197-249 | `finished` with the final count is the last event, and no earlier event is a `finished`; an unreadable folder processes nothing; the count never exceeds the number of selected files; an empty selection emits only `finished(0)` and completes |
| FileProperties.CancelledBeforeProbe | main.py:203-205 | A flag seen at the top of the loop logs the cancellation, counts nothing, touches no file and stops the run at that file |
| FileProperties.UnreadableFileSkipped | main.py:213-218 | A file whose probe fails is probed, logged as unreadable once, not counted and given no progress, and the loop goes on |
| FileProperties.MatchingFileCopied | main.py:220-229 | A file already at the target count is probed, announced, copied from input path to output path and never sent to `ffmpeg`; it is counted exactly when the copy succeeds; a failed copy is logged; progress is reported either way |
| FileProperties.CopyShape | main.py:220-229 | The copy branch logs, copies, logs a failure only if the copy failed, counts exactly on success and ends with the file's progress |
| FileProperties.OtherFileReencoded | main.py:231-236 | A file at another count is probed, announced, its command echoed and `ffmpeg` spawned with the target-count command; it is never copied; a failing spawn ends the run there |
| FileProperties.TranscodeShape | main.py:231-236 | The transcode branch announces the file, echoes the command, then spawns it or ends the run on a failing spawn, and never copies |
| FileProperties.TranscodeRelays | main.py:236-246 | After the spawn the branch holds exactly the lines the output loop relayed; it then ends with terminate, log and wait when the loop saw `cancel()`, ends there when reading the output raises, and otherwise waits for `ffmpeg` and reports progress, the only case that lets the loop go on |
| FileProperties.UncancelledRelay | main.py:237-246 | Without `cancel()`, the transcode branch is the announce, the echo and the spawn, then the relayed output, then wait and progress with the file counted, or nothing more with the run raising when reading the output fails |
| FileProperties.UncancelledReencodeTrace | main.py:230-246 | Without `cancel()`, a re-encoded file's pass is exactly: probe, announce, echo the command, spawn `ffmpeg`, one log per output line in order, then wait and progress with the file counted, or nothing more with the run raising when reading the output fails |
| FileProperties.CountedIffHealthy | main.py:213-246 | One pass counts its file exactly when the file is healthy and the loop goes on after it, and never counts more than one |
| FileProperties.TranscodeCounted | main.py:236-245 | A transcode counts its file exactly when `ffmpeg` started, its output was read to the end and no cancellation stopped it |
| FileProperties.HealthyUncancelledCounted | main.py:213-246 | Without `cancel()`, a healthy file is counted and the loop goes on |
| FileProperties.UncancelledDrain | main.py:237-243 | Without `cancel()`, every output line is relayed, in order, and the relay never stops early |
| FileProperties.DrainSeesFlag | main.py:237-243 | The relay stops for the flag exactly when a line is left to read and the flag is up by one of the remaining reads; otherwise it reads the flag once per line |
| FileProperties.TranscodeInterrupted | main.py:236-242 | A transcode is interrupted exactly when `ffmpeg` prints a line and the flag is up by a read after one of them; then the started process is terminated, logged and waited for, as the last three steps, with no count and no progress |
| FileProperties.CancelledWhileTranscoding | main.py:236-242 | For a file sent to `ffmpeg`, the pass is interrupted exactly when the flag was down at the top of the loop and up by a read after one of the output lines, with the same terminate-log-wait ending, no count and no progress |
| Counting.FileCountShape | main.py:213-246 | One pass adds one to the count exactly when its file is healthy and the loop goes on, and otherwise adds nothing |
| Counting.LoopCountsAll | main.py:202-246 | The loop counts every remaining file exactly when it runs to the end and every remaining file is healthy |
| Counting.LoopCompletesWhenHealthy | main.py:202-246 | Without `cancel()`, a loop over healthy files runs to the end |
| Counting.RunCountsAll | main.py:197-249 | `finished` reports every selected file exactly when the run completed and every selected file was healthy |
| Counting.HealthyRunProcessesAll | main.py:197-249 | Without `cancel()`, a run over healthy files completes and reports all of them processed |
| ProgressProperties.TranscodeProgress | main.py:236-246 | A transcode reports at most its own file's percentage, and reports it exactly once when the loop goes on |
| ProgressProperties.CopyProgress | main.py:220-229 | The copy branch reports its file's percentage exactly once, whether or not the copy succeeded |
| ProgressProperties.AttemptProgress | main.py:207-246 | A probed file reports only its own percentage, and reports it when counted or when it was readable and the loop goes on |
| ProgressProperties.FileStepProgress | main.py:203-246 | One pass reports no percentage or just its own file's percentage, and reports it whenever the file was counted |
| ProgressProperties.FilePercents | main.py:203-246 | Every percentage a pass emits is its own file's, and that percentage is among its steps whenever the file was counted or was readable and the loop goes on |
| ProgressProperties.LoopPercents | main.py:202-246 | The loop's percentages never go down and lie between the first file's percentage and 100 |
| ProgressProperties.LoopReachesLastFile | main.py:202-246 | A loop that runs to the end, with a readable last file, reports the last file's percentage |
| ProgressProperties.LoopCountedProgress | main.py:202-246 | The loop reports at least as many percentages as files it counts |
| ProgressProperties.RunPercents | main.py:197-249 | Over a whole run, every percentage lies in 0..100 and the percentages never go down |
| ProgressProperties.RunCountedProgress | main.py:197-249 | The count `finished` carries never exceeds the number of percentages the run reported |
| ProgressProperties.CompletedRunEndsAtHundred | main.py:197-249 | A completed run over a non-empty selection whose last file was readable reports 100, and every percentage after a 100 is 100 |
| Cancellation.DrainCut | main.py:237-243 | With the flag, the relay logs a prefix of what it logs without it, and all of it when the flag never stops it; without the flag it never stops |
| Cancellation.TranscodeCut | main.py:236-246 | A transcode with the flag is the transcode without it, or a prefix of it followed by terminate-log-wait with no greater count |
| Cancellation.AttemptCut | main.py:207-246 | Probing and acting with the flag is the same pass without it, or a prefix of it followed by the cancellation steps |
| Cancellation.FileStepCut | main.py:203-246 | One pass with the flag is the pass without it, or a prefix of it followed by the cancellation's steps with no greater count |
| Cancellation.LoopCutShort | main.py:202-246 | The loop with the flag is the loop without it, or a prefix of it followed by the cancellation's steps with no greater count; without the flag the loop never ends by cancellation |
| Cancellation.RunCut | main.py:197-249 | A run the flag stopped emitted a prefix of the events of the uncancelled run that stops before its `finished`, then the cancellation's steps, then `finished` with a count no greater than the uncancelled run's; a run the flag never stopped is the uncancelled run |
| Cancellation.TranscodeWork | main.py:231-246 | A transcode touches only its own file |
| Cancellation.ActWork | main.py:220-246 | Acting on a plan touches only its own file, and a cancellation inside it is the transcode of that file |
| Cancellation.AttemptWork | main.py:207-246 | Probing and acting touches only its own file, and a cancellation inside it is the transcode of that file |
| Cancellation.FileWork | main.py:203-246 | One pass touches only its own file, names that file when the flag stops it, and touches nothing when the flag is seen at the top of the loop |
| Cancellation.LoopWork | main.py:202-246 | The loop touches the remaining files in order; stopped by the flag at file `i`, it touches no file after `i`, and not `i` itself when the flag was seen before `i` was probed |
| Cancellation.RunWork | main.py:197-249 | A run touches the selected files in index order; stopped by the flag at file `i`, it never probes, copies or spawns for a later file, nor for `i` when the flag was seen at the top of the loop |
| Cancellation.CancelledAtOnce | main.py:202-205 | With the flag up before the first file, a non-empty run logs the cancellation, emits `finished(0)` and touches no file |

## Left out

- The Qt user interface (windows, dialogs, drag and drop, `start_processing`), the macOS dock icon and `resource_path` are presentation glue, not part of this model.
- Real I/O is not modelled: the directory listing, `subprocess.run`, `shutil.copy2` and `subprocess.Popen` are replaced by their recorded answers in `Environment`. The model does not describe what the copy or `ffmpeg` writes to disk.
- Threads are not modelled. `QThread` scheduling and the thread calling `cancel()` are folded into `cancelAt`, which is the flag read at which the raised flag is first seen. The flag is never lowered, so every later read sees it too (`Worker.CancelPoint`).
- `Environment.Job.toolDir` stands for `getattr(sys, "_MEIPASS", os.getcwd())` (main.py:189-190), which depends on how the program was packaged and started.
- Planner.Percent: computes `(idx + 1) * 100 / total` exactly. The source computes it in floating point, where `int((29 / 100) * 100)` is 28, not 29. The properties proved about `Percent` are not proved for the floating-point version. They are expected to hold there too, because rounding is monotone and `(n / n) * 100` is exactly 100.
- Text.ParseInt: accepts an optional sign and ASCII digits between Python whitespace. Underscore separators and non-ASCII digits, which Python's `int()` also accepts, are not modelled. `ffprobe` prints neither.
- Text.Lower: lower-cases ASCII letters only. Python's `str.lower()` also folds non-ASCII letters, but no non-ASCII character lower-cases into ".mp4" or ".mov", so the selection is unaffected.
- Log lines are modelled by the data they carry (`Worker.Message`). Their decoration, such as emoji and the text of a caught exception, is left out. Only the echoed command and the relayed `ffmpeg` lines have their text modelled (`EchoText`, `RelayText`).
- `ffprobe`'s and `ffmpeg`'s exit statuses are not modelled, because the worker never reads them.
- `processed_count` is kept on the worker object and never reset. The model starts each run at zero, which is correct for a worker that runs once.
- After a failure reading `ffmpeg`'s output, the started process is neither terminated nor waited for. The model ends the run there (`Raised(OutputFailed(i))`) and does not track the orphaned process.
- `Worker.Drain`: its contract says only that flag reads accumulate. What the relay logs and when it stops is stated by `FileProperties.DrainSeesFlag`, `FileProperties.UncancelledDrain` and `Worker.DrainLogsOnly`; where those lines land in a pass's trace is stated by `FileProperties.TranscodeRelays` and `FileProperties.UncancelledReencodeTrace`.

=== FILE: cancellation.dfy ===
/** What `cancel()` does to a run (main.py:194-195, 203-205, 238-242): a
    run that sees the flag is the run that never sees it, cut short at the
    moment the flag was read and finished with the cancellation's own steps;
    a run that never sees it is exactly that run.  No file at or after the
    one being worked on when the flag was seen is touched. */
module Cancellation {
  import opened Wrappers
  import Paths
  import opened Environment
  import opened Selection
  import opened Planner
  import opened Worker

  /** `steps` is a prefix of `full` followed by what the worker does on
      noticing cancellation `e`. */
  predicate CutShort(steps: seq<Step>, e: Ending, full: seq<Step>) {
    exists n | 0 <= n <= |full| :: steps == full[..n] + CancelTail(e)
  }

  predicate StoppedByCancel(stop: Option<Ending>) {
    stop.Some? && stop.value.IsCancellation()
  }

  /** An iteration with the flag against the same iteration without it:
      identical, unless the flag stopped it, in which case it did a prefix of
      the same steps and counted no more. */
  predicate FileCut(f: FileResult, full: FileResult) {
    if StoppedByCancel(f.stop) then CutShort(f.steps, f.stop.value, full.steps) && f.count <= full.count
    else f == full
  }

  predicate LoopCut(l: LoopResult, full: LoopResult) {
    if l.ending.IsCancellation() then CutShort(l.steps, l.ending, full.steps) && l.count <= full.count
    else l == full
  }

  lemma PrefixPrepend(x: seq<Step>, a: seq<Step>, b: seq<Step>)
    requires a <= b
    ensures x + a <= x + b
  {
    assert (x + b)[..|x + a|] == x + b[..|a|];
  }

  lemma PrefixExtend(a: seq<Step>, b: seq<Step>, c: seq<Step>)
    requires a <= b
    ensures a <= b + c
  {
    assert (b + c)[..|a|] == b[..|a|];
  }

  lemma CutShortOf(pre: seq<Step>, e: Ending, full: seq<Step>)
    requires pre <= full
    ensures CutShort(pre + CancelTail(e), e, full)
  {
    assert full[..|pre|] == pre;
  }

  lemma CutShortPrepend(x: seq<Step>, steps: seq<Step>, e: Ending, full: seq<Step>)
    requires CutShort(steps, e, full)
    ensures CutShort(x + steps, e, x + full)
  {
    var n :| 0 <= n <= |full| && steps == full[..n] + CancelTail(e);
    assert (x + full)[..|x| + n] == x + full[..n];
    assert x + steps == (x + full)[..|x| + n] + CancelTail(e);
  }

  lemma CutShortExtend(steps: seq<Step>, e: Ending, full: seq<Step>, more: seq<Step>)
    requires CutShort(steps, e, full)
    ensures CutShort(steps, e, full + more)
  {
    var n :| 0 <= n <= |full| && steps == full[..n] + CancelTail(e);
    assert (full + more)[..n] == full[..n];
  }

  /** The output loop with the flag logs a prefix of what it logs without
      it, and the same when the flag never stops it; without the flag it
      never stops early. */
  lemma {:induction false} DrainCut(lines: seq<string>, j: nat, checks: nat, cancelAt: Option<nat>)
    requires j <= |lines|
    ensures var d := Drain(lines, j, checks, cancelAt);
            var full := Drain(lines, j, checks, None);
            && !full.cancelled
            && (d.cancelled ==> d.logged <= full.logged)
            && (!d.cancelled ==> d == full)
    decreases |lines| - j
  {
    if j < |lines| {
      DrainCut(lines, j + 1, checks + 1, cancelAt);
      var rest := Drain(lines, j + 1, checks + 1, cancelAt);
      var restFull := Drain(lines, j + 1, checks + 1, None);
      if rest.cancelled {
        PrefixPrepend([Emit(Log(ToolOutput(lines[j])))], rest.logged, restFull.logged);
      }
    }
  }

  lemma TranscodeCut(total: nat, idx: nat, name: string, channels: int, args: seq<string>,
                     reply: TranscodeReply, count: nat, checks: nat, cancelAt: Option<nat>)
    requires idx < total
    ensures var full := TranscodeBranch(total, idx, name, channels, args, reply, count, checks, None);
            && FileCut(TranscodeBranch(total, idx, name, channels, args, reply, count, checks, cancelAt), full)
            && !StoppedByCancel(full.stop)
  {
    match reply
    case SpawnRaises =>
    case Runs(lines, readRaises) =>
      DrainCut(lines, 0, checks, cancelAt);
      var d := Drain(lines, 0, checks, cancelAt);
      var dFull := Drain(lines, 0, checks, None);
      if d.cancelled {
        var t := TranscodeBranch(total, idx, name, channels, args, reply, count, checks, cancelAt);
        var full := TranscodeBranch(total, idx, name, channels, args, reply, count, checks, None);
        var head := [Emit(Log(Processing(name, channels))), Emit(Log(CommandLine(args)))] + [Spawn(idx, args)];
        PrefixPrepend(head, d.logged, dFull.logged);
        if readRaises {
          assert full.steps == head + dFull.logged;
        } else {
          PrefixExtend(head + d.logged, head + dFull.logged, [Wait(idx), Emit(Progress(Percent(idx, total)))]);
        }
        CutShortOf(head + d.logged, CancelledDuringTranscode(idx), full.steps);
        assert t.steps == head + d.logged + CancelTail(CancelledDuringTranscode(idx));
      }
  }

  lemma PrependCut(x: seq<Step>, r: FileResult, full: FileResult)
    requires FileCut(r, full)
    ensures FileCut(Prepend(x, r), Prepend(x, full))
  {
    if StoppedByCancel(r.stop) {
      CutShortPrepend(x, r.steps, r.stop.value, full.steps);
    }
  }

  lemma AttemptCut(job: Job, total: nat, idx: nat, entry: Entry, count: nat, checks: nat,
                   cancelAt: Option<nat>)
    requires idx < total
    ensures var full := Attempt(job, total, idx, entry, count, checks, None);
            FileCut(Attempt(job, total, idx, entry, count, checks, cancelAt), full) && !StoppedByCancel(full.stop)
  {
    var src := Paths.Join(job.inputFolder, entry.name);
    var dst := Paths.Join(job.outputFolder, entry.name);
    var action := Plan(ProbeChannels(entry.world.probe), job.channels, FfmpegPath(job), src, dst);
    var a := Act(total, idx, entry.name, job.channels, src, dst, action, entry.world, count, checks, cancelAt);
    var aFull := Act(total, idx, entry.name, job.channels, src, dst, action, entry.world, count, checks, None);
    if action.Reencode? {
      TranscodeCut(total, idx, entry.name, job.channels, action.args, entry.world.transcode, count, checks, cancelAt);
    }
    assert FileCut(a, aFull) && !StoppedByCancel(aFull.stop);
    PrependCut([Probe(idx, ProbeCommand(FfprobePath(job), src))], a, aFull);
  }

  /** One iteration with the flag against the same iteration without it. */
  lemma FileStepCut(job: Job, total: nat, idx: nat, entry: Entry, count: nat, checks: nat,
                    cancelAt: Option<nat>)
    requires idx < total
    ensures var full := ProcessFile(job, total, idx, entry, count, checks, None);
            FileCut(ProcessFile(job, total, idx, entry, count, checks, cancelAt), full) && !StoppedByCancel(full.stop)
  {
    var full := ProcessFile(job, total, idx, entry, count, checks, None);
    AttemptCut(job, total, idx, entry, count, checks + 1, cancelAt);
    if Flagged(cancelAt, checks) {
      NoFinishedInFile(job, total, idx, entry, count, checks, None);
      assert full.steps[..0] + CancelTail(CancelledBeforeFile(idx)) == CancelTail(CancelledBeforeFile(idx));
    }
  }

  /** One turn of the loop with the flag against the same turn without
      it, given how the iteration and the rest of the loop compare. */
  lemma TurnCut(f: FileResult, fFull: FileResult, rest: LoopResult, restFull: LoopResult,
                l: LoopResult, full: LoopResult)
    requires FileCut(f, fFull) && !StoppedByCancel(fFull.stop)
    requires LoopTurn(f, rest, l)
    requires LoopTurn(fFull, restFull, full)
    requires fFull.count <= full.count
    requires f.stop.None? ==> LoopCut(rest, restFull)
    requires fFull.stop.None? ==> !restFull.ending.IsCancellation()
    ensures LoopCut(l, full) && !full.ending.IsCancellation()
  {
    if StoppedByCancel(f.stop) {
      if fFull.stop.None? {
        CutShortExtend(f.steps, f.stop.value, fFull.steps, restFull.steps);
      }
    } else if f.stop.None? && rest.ending.IsCancellation() {
      CutShortPrepend(f.steps, rest.steps, rest.ending, restFull.steps);
    }
  }

  /** The loop from file `idx` on, with the flag against without it. */
  lemma {:induction false} LoopCutShort(job: Job, files: seq<Entry>, idx: nat, count: nat, checks: nat,
                                        cancelAt: Option<nat>)
    requires idx <= |files|
    ensures var full := Loop(job, files, idx, count, checks, None);
            LoopCut(Loop(job, files, idx, count, checks, cancelAt), full) && !full.ending.IsCancellation()
    decreases |files| - idx
  {
    if idx < |files| {
      var f := ProcessFile(job, |files|, idx, files[idx], count, checks, cancelAt);
      var fFull := ProcessFile(job, |files|, idx, files[idx], count, checks, None);
      FileStepCut(job, |files|, idx, files[idx], count, checks, cancelAt);
      LoopStep(job, files, idx, count, checks, cancelAt);
      LoopStep(job, files, idx, count, checks, None);
      var rest := Loop(job, files, idx + 1, f.count, f.checks, cancelAt);
      var restFull := Loop(job, files, idx + 1, fFull.count, fFull.checks, None);
      if f.stop.None? {
        LoopCutShort(job, files, idx + 1, f.count, f.checks, cancelAt);
      } else if fFull.stop.None? {
        LoopCutShort(job, files, idx + 1, fFull.count, fFull.checks, None);
      }
      TurnCut(f, fFull, rest, restFull,
              Loop(job, files, idx, count, checks, cancelAt), Loop(job, files, idx, count, checks, None));
    }
  }

  /** `r` is the run `full` interrupted by `cancel()`, or `full` itself: a
      run the flag stopped did a prefix of `full`'s steps that stops short
      of `full`'s `finished`, then the
      cancellation's own steps, then `finished` with a count no larger than
      `full`'s; any other run is `full`, which never ends by cancellation. */
  predicate Interrupted(r: Outcome, full: Outcome) {
    && !full.ending.IsCancellation()
    && (!r.ending.IsCancellation() ==> r == full)
    && (r.ending.IsCancellation() ==>
          && r.count <= full.count
          && exists n | 0 <= n < |full.trace| ::
               r.trace == full.trace[..n] + CancelTail(r.ending) + [Emit(Finished(r.count))])
  }

  /** `finished` after two loops that compare as `LoopCut` says. */
  lemma FinishCut(l: LoopResult, lFull: LoopResult, r: Outcome, full: Outcome)
    requires LoopCut(l, lFull) && !lFull.ending.IsCancellation()
    requires r.trace == l.steps + [Emit(Finished(l.count))] && r.count == l.count && r.ending == l.ending
    requires full.trace == lFull.steps + [Emit(Finished(lFull.count))] && full.count == lFull.count
    requires full.ending == lFull.ending
    ensures Interrupted(r, full)
  {
    if l.ending.IsCancellation() {
      var n :| 0 <= n <= |lFull.steps| && l.steps == lFull.steps[..n] + CancelTail(l.ending);
      assert full.trace[..n] == lFull.steps[..n];
      assert r.trace == full.trace[..n] + CancelTail(r.ending) + [Emit(Finished(r.count))];
    }
  }

  /** A whole run with `cancel()` taking effect at check `cancelAt` is the
      run where it is never called, interrupted. */
  lemma RunCut(job: Job, dir: Directory, cancelAt: Option<nat>)
    ensures Interrupted(Run(job, dir, cancelAt), Run(job, dir, None))
  {
    match dir
    case ListingRaises =>
    case Listed(entries) =>
      var files := Select(entries);
      RunOfListing(job, entries, cancelAt);
      RunOfListing(job, entries, None);
      LoopCutShort(job, files, 0, 0, 0, cancelAt);
      FinishCut(Loop(job, files, 0, 0, 0, cancelAt), Loop(job, files, 0, 0, 0, None),
                Run(job, dir, cancelAt), Run(job, dir, None));
  }

  /** The work steps among `steps` (probe, copy, spawn) concern files
      `lo..hi-1`, in order of their index. */
  predicate WorkWithin(steps: seq<Step>, lo: int, hi: int) {
    forall s | s in steps && s.IsWork() :: lo <= s.file < hi
  }

  predicate WorkInOrder(steps: seq<Step>) {
    forall i, j | 0 <= i < j < |steps| && steps[i].IsWork() && steps[j].IsWork() :: steps[i].file <= steps[j].file
  }

  predicate NoWork(steps: seq<Step>) {
    forall s | s in steps :: !s.IsWork()
  }

  /** What a stretch of the loop starting at file `lo` of `total` may work
      on, given how it ended: files `lo..total-1` in order, and when the
      flag stopped it at file `i`, no file after `i`, nor `i` itself if the
      flag was seen before `i` was probed. */
  predicate WorkUpTo(steps: seq<Step>, lo: int, total: int, e: Ending) {
    && WorkInOrder(steps) && WorkWithin(steps, lo, total)
    && (e.IsCancellation() ==>
          && lo <= e.file < total
          && WorkWithin(steps, lo, e.file + 1)
          && (e.CancelledBeforeFile? ==> WorkWithin(steps, lo, e.file)))
  }

  /** What one iteration for file `idx` may work on: that file only, none
      of it when the flag was seen before the probe, and a stop by the flag
      names that file. */
  predicate FileWorkShape(f: FileResult, idx: nat) {
    && WorkWithin(f.steps, idx, idx + 1)
    && (StoppedByCancel(f.stop) ==> f.stop.value.file == idx)
    && (f.stop == Some(CancelledBeforeFile(idx)) ==> NoWork(f.steps))
  }

  /** Steps touching only file `i` are trivially in order. */
  lemma SingleFileInOrder(steps: seq<Step>, i: int)
    requires WorkWithin(steps, i, i + 1)
    ensures WorkInOrder(steps)
  {
    forall a, b | 0 <= a < b < |steps| && steps[a].IsWork() && steps[b].IsWork()
      ensures steps[a].file <= steps[b].file
    {
      assert steps[a] in steps && steps[b] in steps;
    }
  }

  /** Work in order on files up to `m`, then work in order on files from
      `m` on, is work in order. */
  lemma ConcatInOrder(a: seq<Step>, b: seq<Step>, lo: int, m: int, hi: int)
    requires WorkInOrder(a) && WorkWithin(a, lo, m + 1)
    requires WorkInOrder(b) && WorkWithin(b, m, hi)
    requires lo <= m < hi
    ensures WorkInOrder(a + b) && WorkWithin(a + b, lo, hi)
  {
    var ab := a + b;
    forall i, j | 0 <= i < j < |ab| && ab[i].IsWork() && ab[j].IsWork()
      ensures ab[i].file <= ab[j].file
    {
      if j < |a| {
        assert ab[i] == a[i] && ab[j] == a[j];
      } else if i < |a| {
        assert ab[i] == a[i] && a[i] in a;
        assert ab[j] == b[j - |a|] && b[j - |a|] in b;
      } else {
        assert ab[i] == b[i - |a|] && ab[j] == b[j - |a|];
      }
    }
    forall s | s in ab && s.IsWork() ensures lo <= s.file < hi {
      assert s in a || s in b;
    }
  }

  lemma TranscodeWork(total: nat, idx: nat, name: string, channels: int, args: seq<string>,
                      reply: TranscodeReply, count: nat, checks: nat, cancelAt: Option<nat>)
    requires idx < total
    ensures WorkWithin(TranscodeBranch(total, idx, name, channels, args, reply, count, checks, cancelAt).steps, idx, idx + 1)
  {
    if reply.Runs? {
      DrainLogsOnly(reply.lines, 0, checks, cancelAt);
    }
  }

  lemma ActWork(total: nat, idx: nat, name: string, channels: int, src: string, dst: string,
                action: Action, world: FileWorld, count: nat, checks: nat, cancelAt: Option<nat>)
    requires idx < total
    ensures var a := Act(total, idx, name, channels, src, dst, action, world, count, checks, cancelAt);
            && WorkWithin(a.steps, idx, idx + 1)
            && (StoppedByCancel(a.stop) ==> a.stop.value == CancelledDuringTranscode(idx))
  {
    if action.Reencode? {
      TranscodeWork(total, idx, name, channels, action.args, world.transcode, count, checks, cancelAt);
    }
  }

  lemma AttemptWork(job: Job, total: nat, idx: nat, entry: Entry, count: nat, checks: nat, cancelAt: Option<nat>)
    requires idx < total
    ensures var a := Attempt(job, total, idx, entry, count, checks, cancelAt);
            && WorkWithin(a.steps, idx, idx + 1)
            && (StoppedByCancel(a.stop) ==> a.stop.value == CancelledDuringTranscode(idx))
  {
    var src := Paths.Join(job.inputFolder, entry.name);
    var dst := Paths.Join(job.outputFolder, entry.name);
    var action := Plan(ProbeChannels(entry.world.probe), job.channels, FfmpegPath(job), src, dst);
    var probe := [Probe(idx, ProbeCommand(FfprobePath(job), src))];
    var a := Act(total, idx, entry.name, job.channels, src, dst, action, entry.world, count, checks, cancelAt);
    ActWork(total, idx, entry.name, job.channels, src, dst, action, entry.world, count, checks, cancelAt);
    forall s | s in probe + a.steps && s.IsWork() ensures idx <= s.file < idx + 1 {
      assert s in probe || s in a.steps;
    }
  }

  /** One iteration works on its own file only; one the flag stopped
      names its own file, and one stopped before the probe touches nothing. */
  lemma FileWork(job: Job, total: nat, idx: nat, entry: Entry, count: nat, checks: nat, cancelAt: Option<nat>)
    requires idx < total
    ensures FileWorkShape(ProcessFile(job, total, idx, entry, count, checks, cancelAt), idx)
  {
    if !Flagged(cancelAt, checks) {
      AttemptWork(job, total, idx, entry, count, checks + 1, cancelAt);
    }
  }

  /** The loop from `idx` on works on files `idx..` in order, and when the
      flag stops it at file `i` it has touched no file after `i`, nor `i`
      itself if the flag was seen before `i` was probed. */
  lemma {:induction false} LoopWork(job: Job, files: seq<Entry>, idx: nat, count: nat, checks: nat,
                                    cancelAt: Option<nat>)
    requires idx <= |files|
    ensures var l := Loop(job, files, idx, count, checks, cancelAt);
            WorkUpTo(l.steps, idx, |files|, l.ending)
    decreases |files| - idx
  {
    if idx < |files| {
      var f := ProcessFile(job, |files|, idx, files[idx], count, checks, cancelAt);
      var rest := Loop(job, files, idx + 1, f.count, f.checks, cancelAt);
      FileWork(job, |files|, idx, files[idx], count, checks, cancelAt);
      LoopStep(job, files, idx, count, checks, cancelAt);
      if f.stop.None? {
        LoopWork(job, files, idx + 1, f.count, f.checks, cancelAt);
      }
      StepWork(f, rest, Loop(job, files, idx, count, checks, cancelAt), idx, |files|);
    }
  }

  /** One turn of the loop, given what the iteration and the rest of the
      loop work on. */
  lemma StepWork(f: FileResult, rest: LoopResult, l: LoopResult, idx: nat, total: nat)
    requires idx < total
    requires FileWorkShape(f, idx)
    requires LoopTurn(f, rest, l)
    requires f.stop.None? ==> WorkUpTo(rest.steps, idx + 1, total, rest.ending)
    ensures WorkUpTo(l.steps, idx, total, l.ending)
  {
    SingleFileInOrder(f.steps, idx);
    if f.stop.None? {
      TurnWork(f.steps, rest.steps, idx, total, rest.ending);
    } else if f.stop.value.CancelledBeforeFile? {
      assert WorkWithin(f.steps, idx, idx);
    }
  }

  /** A turn that continued, followed by the rest of the loop. */
  lemma TurnWork(fs: seq<Step>, rs: seq<Step>, idx: nat, total: nat, e: Ending)
    requires idx < total
    requires WorkInOrder(fs) && WorkWithin(fs, idx, idx + 1)
    requires WorkUpTo(rs, idx + 1, total, e)
    ensures WorkUpTo(fs + rs, idx, total, e)
  {
    if idx + 1 < total {
      ConcatInOrder(fs, rs, idx, idx, total);
    } else {
      assert NoWork(rs);
      ConcatInOrder(fs, rs, idx, idx, idx + 1);
    }
    if e.IsCancellation() {
      ConcatInOrder(fs, rs, idx, idx, e.file + 1);
      if e.CancelledBeforeFile? {
        ConcatInOrder(fs, rs, idx, idx, e.file);
      }
    }
  }

  /** Over a whole run: the selected files are worked on in order, and a
      run the flag stopped while at file `i` touched no file after it, nor
      `i` itself if the flag was seen before `i` was probed. */
  lemma RunWork(job: Job, entries: seq<Entry>, cancelAt: Option<nat>)
    ensures var r := Run(job, Listed(entries), cancelAt);
            WorkUpTo(r.trace, 0, |Select(entries)|, r.ending)
  {
    var files := Select(entries);
    var l := Loop(job, files, 0, 0, 0, cancelAt);
    RunOfListing(job, entries, cancelAt);
    LoopWork(job, files, 0, 0, 0, cancelAt);
    FinishWork(l.steps, l.count, |files|, l.ending);
  }

  /** `finished` does no work, so it keeps what the loop's steps say about
      work. */
  lemma FinishWork(steps: seq<Step>, count: nat, total: nat, e: Ending)
    requires WorkUpTo(steps, 0, total, e)
    ensures WorkUpTo(steps + [Emit(Finished(count))], 0, total, e)
  {
    var t := steps + [Emit(Finished(count))];
    forall i, j | 0 <= i < j < |t| && t[i].IsWork() && t[j].IsWork() ensures t[i].file <= t[j].file {
      assert j < |steps| && t[i] == steps[i] && t[j] == steps[j];
    }
    forall s | s in t && s.IsWork() ensures s in steps {
      assert s in steps || s in [Emit(Finished(count))];
    }
  }

  /** `cancel()` before the first file is reached: a run over a non-empty
      selection logs the cancellation and finishes with nothing processed. */
  lemma CancelledAtOnce(job: Job, entries: seq<Entry>)
    requires Select(entries) != []
    ensures var r := Run(job, Listed(entries), Some(0));
            r.trace == [Emit(Log(CancelledByUser)), Emit(Finished(0))] && r.ending == CancelledBeforeFile(0)
  {
    RunOfListing(job, entries, Some(0));
    LoopStep(job, Select(entries), 0, 0, 0, Some(0));
  }
}

=== FILE: counting.dfy ===
/** `processed_count` over a whole run (main.py:201, 225, 245, 249): the count
    `finished` carries reaches the number of selected files exactly when the
    run went through all of them and every one of them was healthy, and
    without `cancel()` a selection of healthy files is always processed in
    full. */
module Counting {
  import opened Wrappers
  import opened Environment
  import opened Selection
  import opened Worker
  import opened FileProperties

  /** Every file from index `lo` on is healthy. */
  predicate AllHealthy(job: Job, files: seq<Entry>, lo: nat) {
    forall k | lo <= k < |files| :: Healthy(job, files[k])
  }

  lemma AllHealthySplit(job: Job, files: seq<Entry>, idx: nat)
    requires idx < |files|
    ensures AllHealthy(job, files, idx) <==> Healthy(job, files[idx]) && AllHealthy(job, files, idx + 1)
  {
  }

  /** How one iteration counts: at most one more file, exactly one when
      the file is healthy and the loop goes on, and never by completing
      the loop itself. */
  predicate FileCounts(f: FileResult, count: nat, healthy: bool) {
    && count <= f.count <= count + 1
    && (f.count == count + 1 <==> healthy && f.stop.None?)
    && f.stop != Some(Completed)
  }

  lemma FileCountShape(job: Job, total: nat, idx: nat, entry: Entry, count: nat, checks: nat,
                       cancelAt: Option<nat>)
    requires idx < total
    ensures FileCounts(ProcessFile(job, total, idx, entry, count, checks, cancelAt), count, Healthy(job, entry))
  {
    CountedIffHealthy(job, total, idx, entry, count, checks, cancelAt);
    NoFinishedInFile(job, total, idx, entry, count, checks, cancelAt);
  }

  /** One turn of the loop, given how the iteration and the rest of the
      loop count.  `n` is the number of files from this one on, `here`
      whether this file is healthy, `later` whether all after it are. */
  lemma CountStep(f: FileResult, rest: LoopResult, l: LoopResult, count: nat, n: nat, here: bool, later: bool)
    requires n >= 1
    requires FileCounts(f, count, here)
    requires LoopTurn(f, rest, l)
    requires f.stop.None? ==>
               && rest.count <= f.count + (n - 1)
               && (rest.count == f.count + (n - 1) <==> rest.ending == Completed && later)
    ensures l.count == count + n <==> l.ending == Completed && here && later
  {
  }

  /** The loop from file `idx` on counts every one of its files exactly
      when it runs to the end and all of them are healthy. */
  lemma {:induction false} LoopCountsAll(job: Job, files: seq<Entry>, idx: nat, count: nat, checks: nat,
                                         cancelAt: Option<nat>)
    requires idx <= |files|
    ensures var l := Loop(job, files, idx, count, checks, cancelAt);
            l.count == count + (|files| - idx) <==> l.ending == Completed && AllHealthy(job, files, idx)
    decreases |files| - idx
  {
    if idx < |files| {
      var f := ProcessFile(job, |files|, idx, files[idx], count, checks, cancelAt);
      var rest := Loop(job, files, idx + 1, f.count, f.checks, cancelAt);
      FileCountShape(job, |files|, idx, files[idx], count, checks, cancelAt);
      LoopStep(job, files, idx, count, checks, cancelAt);
      if f.stop.None? {
        LoopCountsAll(job, files, idx + 1, f.count, f.checks, cancelAt);
      }
      AllHealthySplit(job, files, idx);
      CountStep(f, rest, Loop(job, files, idx, count, checks, cancelAt), count, |files| - idx,
                Healthy(job, files[idx]), AllHealthy(job, files, idx + 1));
    }
  }

  /** Without `cancel()`, a loop over healthy files runs to the end. */
  lemma {:induction false} LoopCompletesWhenHealthy(job: Job, files: seq<Entry>, idx: nat, count: nat, checks: nat)
    requires idx <= |files|
    requires AllHealthy(job, files, idx)
    ensures Loop(job, files, idx, count, checks, None).ending == Completed
    decreases |files| - idx
  {
    if idx < |files| {
      var f := ProcessFile(job, |files|, idx, files[idx], count, checks, None);
      HealthyUncancelledCounted(job, |files|, idx, files[idx], count, checks);
      LoopStep(job, files, idx, count, checks, None);
      LoopCompletesWhenHealthy(job, files, idx + 1, f.count, f.checks);
    }
  }

  /** A run counts every selected file exactly when it went through all of
      them and each was healthy. */
  lemma RunCountsAll(job: Job, entries: seq<Entry>, cancelAt: Option<nat>)
    ensures var r := Run(job, Listed(entries), cancelAt);
            r.count == |Select(entries)| <==> r.ending == Completed && AllHealthy(job, Select(entries), 0)
  {
    RunOfListing(job, entries, cancelAt);
    LoopCountsAll(job, Select(entries), 0, 0, 0, cancelAt);
  }

  /** Without `cancel()`, a run over healthy files completes and reports
      every selected file as processed. */
  lemma HealthyRunProcessesAll(job: Job, entries: seq<Entry>)
    requires AllHealthy(job, Select(entries), 0)
    ensures var r := Run(job, Listed(entries), None);
            r.ending == Completed && r.count == |Select(entries)|
  {
    RunOfListing(job, entries, None);
    LoopCompletesWhenHealthy(job, Select(entries), 0, 0, 0);
    LoopCountsAll(job, Select(entries), 0, 0, 0, None);
  }
}

=== FILE: environment.dfy ===
/** The worker's inputs and the outside world it talks to.  Every call the
    worker makes into the file system or an external program is replaced by
    the answer that call gives, recorded ahead of time per directory entry. */
module Environment {

  /** The arguments `FFmpegWorker` is constructed with (main.py:183-192).
      `toolDir` is the folder holding the bundled `ffmpeg` and `ffprobe`
      (the application bundle, or the current directory). */
  datatype Job = Job(inputFolder: string, outputFolder: string, channels: int, toolDir: string)

  /** What running `ffprobe` gives: either the call raises (the binary is
      missing, say) or it returns what it printed on standard output.  The
      exit status is never looked at, so it is not recorded. */
  datatype ProbeReply = ProbeRaised | ProbePrinted(stdout: string)

  /** What running `ffmpeg` gives: either starting the process raises, or
      the process prints `lines` (standard output and error merged, each line
      still carrying its newline) and reading the stream after them either
      reaches the end or raises (a decoding error, say).  The exit status is
      never looked at, so it is not recorded. */
  datatype TranscodeReply = SpawnRaises | Runs(lines: seq<string>, readRaises: bool)

  /** How the outside world answers each call made about one input file. */
  datatype FileWorld = FileWorld(probe: ProbeReply, copySucceeds: bool, transcode: TranscodeReply)

  /** One name returned by the directory listing, with the world's answers
      for that file. */
  datatype Entry = Entry(name: string, world: FileWorld)

  /** The input folder as `os.listdir` sees it: unreadable (the call raises)
      or a listing in the order the operating system returns it. */
  datatype Directory = ListingRaises | Listed(entries: seq<Entry>)
}

=== FILE: fileprops.dfy ===
/** What one pass of the for loop of main.py:202-246 does with one file:
    which external commands it issues, what it logs, and exactly when the
    file counts as processed. */
module FileProperties {
  import opened Wrappers
  import opened Text
  import Paths
  import opened Environment
  import opened Planner
  import opened Worker

  /** The arguments the worker hands to `ffprobe` for a file. */
  function ProbeArgs(job: Job, entry: Entry): seq<string> {
    ProbeCommand(FfprobePath(job), Paths.Join(job.inputFolder, entry.name))
  }

  /** The arguments the worker hands to `ffmpeg` for a file. */
  function FfmpegArgs(job: Job, entry: Entry): seq<string> {
    TranscodeCommand(FfmpegPath(job), Paths.Join(job.inputFolder, entry.name), job.channels,
                     Paths.Join(job.outputFolder, entry.name))
  }

  /** A file the worker can carry through: its probe yields a count, and
      the action that count selects succeeds (the copy, or the whole run of
      ffmpeg up to the end of its output). */
  predicate Healthy(job: Job, entry: Entry) {
    var c := ProbeChannels(entry.world.probe);
    && c.Some?
    && (c.value == job.channels ==> entry.world.copySucceeds)
    && (c.value != job.channels ==> entry.world.transcode.Runs? && !entry.world.transcode.readRaises)
  }

  /** The flag seen at the top of the loop (main.py:203-205): the only thing
      done for the file is the log line, and the loop is left. */
  lemma CancelledBeforeProbe(job: Job, total: nat, idx: nat, entry: Entry, count: nat, checks: nat,
                             cancelAt: Option<nat>)
    requires idx < total && Flagged(cancelAt, checks)
    ensures var f := ProcessFile(job, total, idx, entry, count, checks, cancelAt);
            && f.steps == [Emit(Log(CancelledByUser))]
            && f.count == count
            && f.stop == Some(CancelledBeforeFile(idx))
  {
  }

  /** A probe that raises or prints something `int` rejects (main.py:213-218):
      the file is probed, reported, and skipped, with no progress and no
      count. */
  lemma UnreadableFileSkipped(job: Job, total: nat, idx: nat, entry: Entry, count: nat, checks: nat,
                              cancelAt: Option<nat>)
    requires idx < total && !Flagged(cancelAt, checks)
    requires ProbeChannels(entry.world.probe).None?
    ensures var f := ProcessFile(job, total, idx, entry, count, checks, cancelAt);
            && f.steps == [Probe(idx, ProbeArgs(job, entry)), Emit(Log(AnalyzeFailed(entry.name)))]
            && f.count == count
            && f.stop.None?
  {
  }

  /** A file already at the target count is copied and never handed to
      ffmpeg (main.py:220-229); it counts exactly when the copy succeeds, a
      failed copy is logged, and its progress is reported either way. */
  lemma {:induction false} MatchingFileCopied(job: Job, total: nat, idx: nat, entry: Entry, count: nat, checks: nat,
                           cancelAt: Option<nat>)
    requires idx < total && !Flagged(cancelAt, checks)
    requires ProbeChannels(entry.world.probe) == Some(job.channels)
    ensures var f := ProcessFile(job, total, idx, entry, count, checks, cancelAt);
            var src, dst := Paths.Join(job.inputFolder, entry.name), Paths.Join(job.outputFolder, entry.name);
            && |f.steps| >= 4
            && f.steps[0] == Probe(idx, ProbeArgs(job, entry))
            && f.steps[1] == Emit(Log(Copying(entry.name, job.channels)))
            && f.steps[2] == Copy(idx, src, dst)
            && f.steps[|f.steps| - 1] == Emit(Progress(Percent(idx, total)))
            && (!entry.world.copySucceeds ==> |f.steps| == 5 && f.steps[3] == Emit(Log(CopyFailed(entry.name))))
            && (entry.world.copySucceeds ==> |f.steps| == 4)
            && (forall s | s in f.steps :: !s.Spawn?)
            && (f.count == count + 1 <==> entry.world.copySucceeds)
            && f.count <= count + 1
            && f.stop.None?
  {
    var src, dst := Paths.Join(job.inputFolder, entry.name), Paths.Join(job.outputFolder, entry.name);
    var c := CopyBranch(total, idx, entry.name, job.channels, src, dst, entry.world.copySucceeds, count, checks + 1);
    ProcessFileCopies(job, total, idx, entry, count, checks, cancelAt);
    var f := ProcessFile(job, total, idx, entry, count, checks, cancelAt);
    assert f == Prepend([Probe(idx, ProbeArgs(job, entry))], c);
    CopyShape(total, idx, entry.name, job.channels, src, dst, entry.world.copySucceeds, count, checks + 1);
    PrependShape(Probe(idx, ProbeArgs(job, entry)), c);
  }

  lemma ProcessFileCopies(job: Job, total: nat, idx: nat, entry: Entry, count: nat, checks: nat,
                          cancelAt: Option<nat>)
    requires idx < total && !Flagged(cancelAt, checks)
    requires ProbeChannels(entry.world.probe) == Some(job.channels)
    ensures var src, dst := Paths.Join(job.inputFolder, entry.name), Paths.Join(job.outputFolder, entry.name);
            ProcessFile(job, total, idx, entry, count, checks, cancelAt)
              == Prepend([Probe(idx, ProbeArgs(job, entry))],
                         CopyBranch(total, idx, entry.name, job.channels, src, dst, entry.world.copySucceeds, count, checks + 1))
  {
  }

  /** Putting one step in front of a pass's steps. */
  lemma PrependShape(x: Step, r: FileResult)
    ensures var p := Prepend([x], r);
            && |p.steps| == |r.steps| + 1
            && p.steps[0] == x
            && (forall k :: 0 <= k < |r.steps| ==> p.steps[k + 1] == r.steps[k])
            && (forall s :: s in p.steps <==> s == x || s in r.steps)
            && p.count == r.count && p.stop == r.stop
  {
  }

  lemma CopyShape(total: nat, idx: nat, name: string, channels: int, src: string, dst: string,
                  succeeds: bool, count: nat, checks: nat)
    requires idx < total
    ensures var c := CopyBranch(total, idx, name, channels, src, dst, succeeds, count, checks);
            && |c.steps| >= 3
            && c.steps[0] == Emit(Log(Copying(name, channels)))
            && c.steps[1] == Copy(idx, src, dst)
            && c.steps[|c.steps| - 1] == Emit(Progress(Percent(idx, total)))
            && (!succeeds ==> |c.steps| == 4 && c.steps[2] == Emit(Log(CopyFailed(name))))
            && (succeeds ==> |c.steps| == 3)
            && (forall s | s in c.steps :: !s.Spawn?)
            && (c.count == count + 1 <==> succeeds)
            && c.count <= count + 1
            && c.stop.None?
  {
  }

  /** Any other probed count sends the file through ffmpeg with the target
      count (main.py:231-236): after the probe and two log lines, ffmpeg is
      started with exactly `FfmpegArgs`, unless starting it raises. */
  lemma {:induction false} OtherFileReencoded(job: Job, total: nat, idx: nat, entry: Entry, count: nat, checks: nat,
                           cancelAt: Option<nat>)
    requires idx < total && !Flagged(cancelAt, checks)
    requires ProbeChannels(entry.world.probe).Some? && ProbeChannels(entry.world.probe) != Some(job.channels)
    ensures var f := ProcessFile(job, total, idx, entry, count, checks, cancelAt);
            var args := FfmpegArgs(job, entry);
            && |f.steps| >= 3
            && f.steps[0] == Probe(idx, ProbeArgs(job, entry))
            && f.steps[1] == Emit(Log(Processing(entry.name, job.channels)))
            && f.steps[2] == Emit(Log(CommandLine(args)))
            && (entry.world.transcode.SpawnRaises? ==> |f.steps| == 3 && f.stop == Some(Raised(SpawnFailed(idx))))
            && (entry.world.transcode.Runs? ==> |f.steps| >= 4 && f.steps[3] == Spawn(idx, args))
            && (forall s | s in f.steps :: !s.Copy?)
  {
    var t := TranscodeBranch(total, idx, entry.name, job.channels, FfmpegArgs(job, entry), entry.world.transcode,
                             count, checks + 1, cancelAt);
    ProcessFileReencodes(job, total, idx, entry, count, checks, cancelAt);
    TranscodeShape(total, idx, entry.name, job.channels, FfmpegArgs(job, entry), entry.world.transcode,
                   count, checks + 1, cancelAt);
    PrependShape(Probe(idx, ProbeArgs(job, entry)), t);
  }

  lemma ProcessFileReencodes(job: Job, total: nat, idx: nat, entry: Entry, count: nat, checks: nat,
                             cancelAt: Option<nat>)
    requires idx < total && !Flagged(cancelAt, checks)
    requires ProbeChannels(entry.world.probe).Some? && ProbeChannels(entry.world.probe) != Some(job.channels)
    ensures ProcessFile(job, total, idx, entry, count, checks, cancelAt)
              == Prepend([Probe(idx, ProbeArgs(job, entry))],
                         TranscodeBranch(total, idx, entry.name, job.channels, FfmpegArgs(job, entry),
                                         entry.world.transcode, count, checks + 1, cancelAt))
  {
  }

  lemma TranscodeShape(total: nat, idx: nat, name: string, channels: int, args: seq<string>,
                       reply: TranscodeReply, count: nat, checks: nat, cancelAt: Option<nat>)
    requires idx < total
    ensures var t := TranscodeBranch(total, idx, name, channels, args, reply, count, checks, cancelAt);
            && |t.steps| >= 2
            && t.steps[0] == Emit(Log(Processing(name, channels)))
            && t.steps[1] == Emit(Log(CommandLine(args)))
            && (reply.SpawnRaises? ==> |t.steps| == 2 && t.stop == Some(Raised(SpawnFailed(idx))))
            && (reply.Runs? ==> |t.steps| >= 3 && t.steps[2] == Spawn(idx, args))
            && (forall s | s in t.steps :: !s.Copy?)
  {
    if reply.Runs? {
      DrainLogsOnly(reply.lines, 0, checks, cancelAt);
    }
  }

  /** Once ffmpeg is started (main.py:237-246) the branch logs what the
      output loop relays and nothing else; after the loop it appends the
      cancellation tail, stops on a failed read with nothing more, or waits
      for ffmpeg and reports progress, and only the last of these lets the
      loop go on. */
  lemma TranscodeRelays(total: nat, idx: nat, name: string, channels: int, args: seq<string>,
                        reply: TranscodeReply, count: nat, checks: nat, cancelAt: Option<nat>)
    requires idx < total && reply.Runs?
    ensures var t := TranscodeBranch(total, idx, name, channels, args, reply, count, checks, cancelAt);
            var d := Drain(reply.lines, 0, checks, cancelAt);
            var ran := [Emit(Log(Processing(name, channels))), Emit(Log(CommandLine(args))), Spawn(idx, args)] + d.logged;
            && |ran| <= |t.steps| && t.steps[..|ran|] == ran
            && (t.stop.None? <==> !d.cancelled && !reply.readRaises)
            && (t.stop.None? ==> t.steps == ran + [Wait(idx), Emit(Progress(Percent(idx, total)))])
            && (d.cancelled ==> t.steps == ran + CancelTail(CancelledDuringTranscode(idx))
                                && t.stop == Some(CancelledDuringTranscode(idx)))
            && (!d.cancelled && reply.readRaises ==> t.steps == ran && t.stop == Some(Raised(OutputFailed(idx))))
  {
  }

  /** A file sent through ffmpeg with no cancellation (main.py:230-246):
      the pass is exactly the probe, the two log lines, the start of ffmpeg,
      one log line per line of its output in order, and then either the
      wait and the progress report, or, when reading the output raises,
      nothing more. */
  lemma {:induction false} UncancelledReencodeTrace(job: Job, total: nat, idx: nat, entry: Entry, count: nat,
                                                    checks: nat)
    requires idx < total
    requires ProbeChannels(entry.world.probe).Some? && ProbeChannels(entry.world.probe) != Some(job.channels)
    requires entry.world.transcode.Runs?
    ensures var f := ProcessFile(job, total, idx, entry, count, checks, None);
            var lines := entry.world.transcode.lines;
            var args := FfmpegArgs(job, entry);
            && |f.steps| == 4 + |lines| + (if entry.world.transcode.readRaises then 0 else 2)
            && f.steps[..4] == [Probe(idx, ProbeArgs(job, entry)), Emit(Log(Processing(entry.name, job.channels))),
                                Emit(Log(CommandLine(args))), Spawn(idx, args)]
            && (forall k :: 0 <= k < |lines| ==> f.steps[4 + k] == Emit(Log(ToolOutput(lines[k]))))
            && (entry.world.transcode.readRaises ==> f.stop == Some(Raised(OutputFailed(idx))) && f.count == count)
            && (!entry.world.transcode.readRaises ==>
                  && f.steps[4 + |lines|] == Wait(idx)
                  && f.steps[5 + |lines|] == Emit(Progress(Percent(idx, total)))
                  && f.stop.None? && f.count == count + 1)
  {
    var lines, args := entry.world.transcode.lines, FfmpegArgs(job, entry);
    var t := TranscodeBranch(total, idx, entry.name, job.channels, args, entry.world.transcode,
                             count, checks + 1, None);
    var tail := if entry.world.transcode.readRaises then [] else [Wait(idx), Emit(Progress(Percent(idx, total)))];
    ProcessFileReencodes(job, total, idx, entry, count, checks, None);
    UncancelledRelay(total, idx, entry.name, job.channels, args, entry.world.transcode, count, checks + 1);
    var f := ProcessFile(job, total, idx, entry, count, checks, None);
    assert f.steps == [Probe(idx, ProbeArgs(job, entry))] + t.steps && f.count == t.count && f.stop == t.stop;
    RelayedPass(Probe(idx, ProbeArgs(job, entry)), Emit(Log(Processing(entry.name, job.channels))),
                Emit(Log(CommandLine(args))), Spawn(idx, args), lines, checks + 1, tail, t.steps, f.steps);
  }

  /** The transcode branch with no cancellation: every line relayed, then
      the wait and the progress report unless reading the output raises. */
  lemma UncancelledRelay(total: nat, idx: nat, name: string, channels: int, args: seq<string>,
                         reply: TranscodeReply, count: nat, checks: nat)
    requires idx < total && reply.Runs?
    ensures var t := TranscodeBranch(total, idx, name, channels, args, reply, count, checks, None);
            var tail := if reply.readRaises then [] else [Wait(idx), Emit(Progress(Percent(idx, total)))];
            && t.steps == [Emit(Log(Processing(name, channels))), Emit(Log(CommandLine(args))), Spawn(idx, args)]
                          + Drain(reply.lines, 0, checks, None).logged + tail
            && (reply.readRaises ==> t.stop == Some(Raised(OutputFailed(idx))) && t.count == count)
            && (!reply.readRaises ==> t.stop.None? && t.count == count + 1)
  {
    UncancelledDrain(reply.lines, 0, checks);
  }

  /** Index arithmetic for `UncancelledReencodeTrace`: one step in front of
      three steps, the relayed lines and a tail. */
  lemma RelayedPass(a: Step, b: Step, c: Step, e: Step, lines: seq<string>, checks: nat, tail: seq<Step>,
                    rest: seq<Step>, s: seq<Step>)
    requires rest == [b, c, e] + Drain(lines, 0, checks, None).logged + tail && s == [a] + rest
    ensures |s| == 4 + |lines| + |tail|
    ensures s[..4] == [a, b, c, e]
    ensures forall k :: 0 <= k < |lines| ==> s[4 + k] == Emit(Log(ToolOutput(lines[k])))
    ensures forall k :: 0 <= k < |tail| ==> s[4 + |lines| + k] == tail[k]
  {
    var logged := Drain(lines, 0, checks, None).logged;
    UncancelledDrain(lines, 0, checks);
    forall k | 0 <= k < |lines|
      ensures s[4 + k] == Emit(Log(ToolOutput(lines[k])))
    {
      assert s[4 + k] == logged[k];
    }
    assert s[..4] == [a] + [b, c, e];
  }

  /** Which files count (main.py:225 and 245): a file adds one to
      `processed_count` exactly when it is healthy and its pass runs to the
      end of the loop body, and a pass that does not stop the loop on a
      healthy file always counts it. */
  lemma {:induction false} CountedIffHealthy(job: Job, total: nat, idx: nat, entry: Entry, count: nat, checks: nat,
                                             cancelAt: Option<nat>)
    requires idx < total
    ensures var f := ProcessFile(job, total, idx, entry, count, checks, cancelAt);
            && (f.count == count + 1 <==> Healthy(job, entry) && f.stop.None?)
            && f.count <= count + 1
  {
    NoFinishedInFile(job, total, idx, entry, count, checks, cancelAt);
    if !Flagged(cancelAt, checks) {
      var c := ProbeChannels(entry.world.probe);
      if c.Some? && c.value != job.channels {
        var src, dst := Paths.Join(job.inputFolder, entry.name), Paths.Join(job.outputFolder, entry.name);
        TranscodeCounted(total, idx, entry.name, job.channels, FfmpegArgs(job, entry), entry.world.transcode,
                         count, checks + 1, cancelAt);
      }
    }
  }

  lemma TranscodeCounted(total: nat, idx: nat, name: string, channels: int, args: seq<string>,
                         reply: TranscodeReply, count: nat, checks: nat, cancelAt: Option<nat>)
    requires idx < total
    ensures var t := TranscodeBranch(total, idx, name, channels, args, reply, count, checks, cancelAt);
            t.count == count + 1 <==> reply.Runs? && !reply.readRaises && t.stop.None?
  {
  }

  /** Without a cancellation, a healthy file never stops the loop and is
      always counted. */
  lemma {:induction false} HealthyUncancelledCounted(job: Job, total: nat, idx: nat, entry: Entry, count: nat, checks: nat)
    requires idx < total && Healthy(job, entry)
    ensures var f := ProcessFile(job, total, idx, entry, count, checks, None);
            f.count == count + 1 && f.stop.None?
  {
    var src, dst := Paths.Join(job.inputFolder, entry.name), Paths.Join(job.outputFolder, entry.name);
    if ProbeChannels(entry.world.probe) != Some(job.channels) {
      var t := TranscodeBranch(total, idx, entry.name, job.channels, FfmpegArgs(job, entry), entry.world.transcode,
                               count, checks + 1, None);
      ProcessFileReencodes(job, total, idx, entry, count, checks, None);
      UncancelledDrain(entry.world.transcode.lines, 0, checks + 1);
      PrependShape(Probe(idx, ProbeArgs(job, entry)), t);
    } else {
      var c := CopyBranch(total, idx, entry.name, job.channels, src, dst, entry.world.copySucceeds, count, checks + 1);
      ProcessFileCopies(job, total, idx, entry, count, checks, None);
      PrependShape(Probe(idx, ProbeArgs(job, entry)), c);
    }
  }

  /** With no cancellation the output loop relays every line and never
      stops early. */
  lemma {:induction false} UncancelledDrain(lines: seq<string>, j: nat, checks: nat)
    requires j <= |lines|
    ensures var d := Drain(lines, j, checks, None);
            && !d.cancelled
            && |d.logged| == |lines| - j
            && forall k :: 0 <= k < |d.logged| ==> d.logged[k] == Emit(Log(ToolOutput(lines[j + k])))
    decreases |lines| - j
  {
    if j < |lines| {
      UncancelledDrain(lines, j + 1, checks + 1);
      var rest := Drain(lines, j + 1, checks + 1, None);
      var d := Drain(lines, j, checks, None);
      assert d.logged == [Emit(Log(ToolOutput(lines[j])))] + rest.logged;
      forall k | 0 <= k < |d.logged|
        ensures d.logged[k] == Emit(Log(ToolOutput(lines[j + k])))
      {
        if k > 0 {
          assert d.logged[k] == rest.logged[k - 1];
        }
      }
    }
  }

  /** The output loop stops on the flag exactly when some line is left to
      read and the flag is up by the check made after one of them; checks
      `checks`, `checks + 1`, ... are made after lines `j`, `j + 1`, .... */
  lemma {:induction false} DrainSeesFlag(lines: seq<string>, j: nat, checks: nat, cancelAt: Option<nat>)
    requires j <= |lines|
    ensures var d := Drain(lines, j, checks, cancelAt);
            && (d.cancelled <==> j < |lines| && cancelAt.Some? && cancelAt.value < checks + (|lines| - j))
            && (!d.cancelled ==> d.checks == checks + (|lines| - j))
    decreases |lines| - j
  {
    if j < |lines| && !Flagged(cancelAt, checks) {
      DrainSeesFlag(lines, j + 1, checks + 1, cancelAt);
    }
  }

  /** What an interrupted transcode leaves behind: ffmpeg started at
      position `at` with `args`, then, as the last three steps, terminated,
      logged and waited for, and no progress reported anywhere. */
  predicate InterruptedShape(steps: seq<Step>, at: nat, idx: nat, args: seq<string>) {
    && |steps| >= at + 4
    && steps[at] == Spawn(idx, args)
    && steps[|steps| - 3] == Terminate(idx)
    && steps[|steps| - 2] == Emit(Log(ProcessTerminated))
    && steps[|steps| - 1] == Wait(idx)
    && forall s | s in steps :: !s.IsProgress()
  }

  lemma PrependInterrupted(x: Step, steps: seq<Step>, at: nat, idx: nat, args: seq<string>)
    requires InterruptedShape(steps, at, idx, args) && !x.IsProgress()
    ensures InterruptedShape([x] + steps, at + 1, idx, args)
  {
    var p := [x] + steps;
    assert p[at + 1] == steps[at];
    assert p[|p| - 3] == steps[|steps| - 3] && p[|p| - 2] == steps[|steps| - 2] && p[|p| - 1] == steps[|steps| - 1];
    forall s | s in p ensures !s.IsProgress() {
      assert s == x || s in steps;
    }
  }

  /** ffmpeg interrupted by `cancel()` (main.py:237-242): it happens exactly
      when ffmpeg prints at least one line and the flag is up by the check
      after one of them; then the process, which was started, is
      terminated, logged and waited for, as the last three steps, and the
      file is neither counted nor reported as progress. */
  lemma TranscodeInterrupted(total: nat, idx: nat, name: string, channels: int, args: seq<string>,
                             reply: TranscodeReply, count: nat, checks: nat, cancelAt: Option<nat>)
    requires idx < total
    ensures var t := TranscodeBranch(total, idx, name, channels, args, reply, count, checks, cancelAt);
            && (t.stop == Some(CancelledDuringTranscode(idx)) <==>
                  reply.Runs? && |reply.lines| > 0 && cancelAt.Some? && cancelAt.value < checks + |reply.lines|)
            && (t.stop == Some(CancelledDuringTranscode(idx)) ==>
                  InterruptedShape(t.steps, 2, idx, args) && t.count == count)
  {
    if reply.Runs? {
      DrainSeesFlag(reply.lines, 0, checks, cancelAt);
      DrainLogsOnly(reply.lines, 0, checks, cancelAt);
    }
  }

  /** The same seen from the loop: a file sent to ffmpeg is interrupted
      exactly when the flag is down at the top of the loop and up by the
      check after one of ffmpeg's lines. */
  lemma {:induction false} CancelledWhileTranscoding(job: Job, total: nat, idx: nat, entry: Entry, count: nat,
                                                     checks: nat, cancelAt: Option<nat>)
    requires idx < total
    requires ProbeChannels(entry.world.probe).Some? && ProbeChannels(entry.world.probe) != Some(job.channels)
    requires entry.world.transcode.Runs?
    ensures var f := ProcessFile(job, total, idx, entry, count, checks, cancelAt);
            var n := |entry.world.transcode.lines|;
            && (f.stop == Some(CancelledDuringTranscode(idx)) <==>
                  cancelAt.Some? && checks < cancelAt.value <= checks + n)
            && (f.stop == Some(CancelledDuringTranscode(idx)) ==>
                  InterruptedShape(f.steps, 3, idx, FfmpegArgs(job, entry)) && f.count == count)
  {
    if !Flagged(cancelAt, checks) {
      var t := TranscodeBranch(total, idx, entry.name, job.channels, FfmpegArgs(job, entry), entry.world.transcode,
                               count, checks + 1, cancelAt);
      ProcessFileReencodes(job, total, idx, entry, count, checks, cancelAt);
      TranscodeInterrupted(total, idx, entry.name, job.channels, FfmpegArgs(job, entry), entry.world.transcode,
                           count, checks + 1, cancelAt);
      if t.stop == Some(CancelledDuringTranscode(idx)) {
        PrependInterrupted(Probe(idx, ProbeArgs(job, entry)), t.steps, 2, idx, FfmpegArgs(job, entry));
      }
    }
  }
}

=== FILE: paths.dfy ===
/** POSIX path handling as Python's `os.path` does it on macOS and Linux:
    `join` of a folder and a directory-entry name, and `basename` as its
    partner. */
module Paths {
  import opened Text

  /** `os.path.join(dir, name)`: an absolute `name` replaces `dir`; otherwise
      a '/' is inserted unless `dir` is empty or already ends in one. */
  function Join(dir: string, name: string): (r: string)
    ensures EndsWith(r, name)
  {
    if |name| > 0 && name[0] == '/' then name
    else if dir == [] || dir[|dir| - 1] == '/' then dir + name
    else dir + "/" + name
  }

  /** `os.path.basename(p)`: the text after the last '/'. */
  function BaseName(p: string): (r: string)
    ensures '/' !in r
  {
    if p == [] || p[|p| - 1] == '/' then []
    else BaseName(p[..|p| - 1]) + [p[|p| - 1]]
  }

  lemma {:induction false} BaseNameAfterSlash(pre: string, name: string)
    requires pre == [] || pre[|pre| - 1] == '/'
    requires '/' !in name
    ensures BaseName(pre + name) == name
    decreases |name|
  {
    if name == [] {
      assert pre + name == pre;
    } else {
      var init := name[..|name| - 1];
      var last := name[|name| - 1];
      assert name == init + [last];
      assert '/' !in init by {
        forall k | 0 <= k < |init| ensures init[k] != '/' {
          assert init[k] == name[k];
        }
      }
      assert BaseName(pre + name) == BaseName(pre + init) + [last] by {
        var p := pre + name;
        assert last in name;
        assert p[|p| - 1] == last;
        assert p[..|p| - 1] == pre + init;
      }
      BaseNameAfterSlash(pre, init);
    }
  }

  /** A directory-entry name joined under a folder is a path that starts
      with the folder and whose basename is that same name. */
  lemma JoinUnderFolder(dir: string, name: string)
    requires '/' !in name
    ensures |Join(dir, name)| >= |dir| && Join(dir, name)[..|dir|] == dir
    ensures BaseName(Join(dir, name)) == name
  {
    if |name| > 0 {
      assert name[0] in name;
    }
    if dir == [] || dir[|dir| - 1] == '/' {
      BaseNameAfterSlash(dir, name);
    } else {
      assert dir + "/" + name == (dir + "/") + name;
      BaseNameAfterSlash(dir + "/", name);
    }
  }
}

=== FILE: planner.dfy ===
/** The per-file decisions of the worker: the external command lines, how
    the probe's output is read, whether a file is copied or re-encoded, and
    the progress percentage reported after a file (main.py:207-246). */
module Planner {
  import opened Wrappers
  import opened Text
  import Paths
  import opened Environment

  /** `os.path.join(base, "ffmpeg")` (main.py:189). */
  function FfmpegPath(job: Job): string {
    Paths.Join(job.toolDir, "ffmpeg")
  }

  /** `os.path.join(base, "ffprobe")` (main.py:190). */
  function FfprobePath(job: Job): string {
    Paths.Join(job.toolDir, "ffprobe")
  }

  /** The `ffprobe` command line asking for the channel count of the first
      audio stream as a bare number (main.py:209-212). */
  function ProbeCommand(ffprobe: string, input: string): seq<string>
  {
    [ffprobe, "-v", "error", "-select_streams", "a:0",
     "-show_entries", "stream=channels", "-of", "default=noprint_wrappers=1:nokey=1", input]
  }

  /** `int(result.stdout.strip())` inside its `try`: a raising probe or
      output that is not an integer both end up as `None` (main.py:213-218).
      The explicit strip changes nothing, since `int` strips as well. */
  function ProbeChannels(reply: ProbeReply): (r: Option<int>)
    ensures reply.ProbeRaised? ==> r.None?
    ensures reply.ProbePrinted? ==> r == ParseInt(reply.stdout)
  {
    match reply
    case ProbeRaised => None
    case ProbePrinted(out) =>
      StripIdempotent(out);
      ParseLiteral(Strip(Strip(out)))
  }

  /** A channel count printed by `ffprobe`, with any surrounding whitespace
      such as its trailing newline, is read back as that count. */
  lemma ProbeReadsPrintedCount(n: int, before: string, after: string)
    requires AllSpace(before) && AllSpace(after)
    ensures ProbeChannels(ProbePrinted(before + IntToString(n) + after)) == Some(n)
  {
    IntRoundTrip(n, before, after);
  }

  /** The `ffmpeg` command line (main.py:231-232): copy the video stream,
      re-encode the audio as AAC with `channels` channels.  The channel
      argument is canonical text that reads back as `channels`, which by
      `Text.IntToStringUnique` makes it `str(channels)`. */
  function TranscodeCommand(ffmpeg: string, input: string, channels: int, output: string): (args: seq<string>)
    ensures |args| == 10 && ParseInt(args[4]) == Some(channels)
    ensures IsCanonicalInt(args[4]) && ParseLiteral(args[4]) == Some(channels)
    ensures args == [ffmpeg, "-i", input, "-ac", args[4], "-c:v", "copy", "-c:a", "aac", output]
  {
    IntToStringParses(channels);
    [ffmpeg, "-i", input, "-ac", IntToString(channels), "-c:v", "copy", "-c:a", "aac", output]
  }

  /** What the worker does with a file once it has been probed. */
  datatype Action =
    | ReportUnreadable            // the probe failed: log and move on
    | CopyAsIs                    // already the target layout: plain copy
    | Reencode(args: seq<string>) // run ffmpeg with this command line

  /** The decision of main.py:213-232: a failed probe skips the file, a
      probed count equal to the target copies it, any other count
      re-encodes it with the target count. */
  function Plan(current: Option<int>, target: int, ffmpeg: string, src: string, dst: string): (a: Action)
    ensures a.ReportUnreadable? <==> current.None?
    ensures a.CopyAsIs? <==> current == Some(target)
    ensures a.Reencode? <==> current.Some? && current.value != target
    ensures a.Reencode? ==> a.args == TranscodeCommand(ffmpeg, src, target, dst)
  {
    match current
    case None => ReportUnreadable
    case Some(c) =>
      if c == target then CopyAsIs
      else Reencode(TranscodeCommand(ffmpeg, src, target, dst))
  }

  /** `int(((idx + 1) / total) * 100)` computed exactly: the share of files
      attempted once file `idx` of `total` is done.  It is 100 exactly at
      the last file. */
  function Percent(idx: nat, total: nat): (p: int)
    requires idx < total
    ensures 0 <= p <= 100
    ensures p == 100 <==> idx == total - 1
  {
    var p := ((idx + 1) * 100) / total;
    DivisionBounds((idx + 1) * 100, total, 100);
    p
  }

  /** For `0 <= a <= k * d`: `a / d <= k`, with equality exactly when
      `a == k * d`. */
  lemma DivisionBounds(a: nat, d: nat, k: nat)
    requires d > 0 && a <= k * d
    ensures 0 <= a / d <= k
    ensures a / d == k <==> a == k * d
  {
    var q, r := a / d, a % d;
    assert a == q * d + r && 0 <= r < d;
    if q > k {
      assert false;
    }
    if q < k && a == k * d {
      MulGap(q, k, d);
      assert false;
    }
  }

  lemma DivisionMonotone(a: nat, b: nat, d: nat)
    requires d > 0 && a <= b
    ensures a / d <= b / d
  {
    var qa, qb := a / d, b / d;
    assert a == qa * d + a % d && b == qb * d + b % d;
    if qa > qb {
      MulGap(qb, qa, d);
      assert false;
    }
  }

  /** Multiples of `d` with different factors are at least `d` apart. */
  lemma {:induction false} MulGap(x: nat, y: nat, d: nat)
    requires x < y
    ensures x * d + d <= y * d
    decreases y - x
  {
    assert y * d == (y - 1) * d + d;
    if x < y - 1 {
      MulGap(x, y - 1, d);
    }
  }

  /** Later files never report a smaller percentage. */
  lemma PercentMonotone(i: nat, j: nat, total: nat)
    requires i <= j < total
    ensures Percent(i, total) <= Percent(j, total)
  {
    DivisionMonotone((i + 1) * 100, (j + 1) * 100, total);
  }
}

=== FILE: progress.dfy ===
/** Progress and counting over a run's trace (main.py:225, 228, 245-246):
    every percentage emitted lies in 0..100, the percentages never go down,
    every counted file also reported progress, and a completed run whose
    last file could be probed ends on 100. */
module ProgressProperties {
  import opened Wrappers
  import opened Environment
  import opened Selection
  import opened Planner
  import opened Worker

  /** The percentages a trace emits, in order. */
  function ProgressValues(steps: seq<Step>): seq<int> {
    if steps == [] then []
    else PercentOf(steps[0]) + ProgressValues(steps[1..])
  }

  function PercentOf(s: Step): seq<int> {
    if s.IsProgress() then [s.signal.percent] else []
  }

  lemma {:induction false} ProgressValuesAppend(a: seq<Step>, b: seq<Step>)
    ensures ProgressValues(a + b) == ProgressValues(a) + ProgressValues(b)
    decreases |a|
  {
    if a == [] {
      assert a + b == b;
    } else {
      var ab := a + b;
      assert ab[0] == a[0];
      assert ab[1..] == a[1..] + b;
      ProgressValuesAppend(a[1..], b);
      assert ProgressValues(ab) == PercentOf(a[0]) + ProgressValues(a[1..] + b);
      assert ProgressValues(a) == PercentOf(a[0]) + ProgressValues(a[1..]);
    }
  }

  lemma {:induction false} NoProgressValues(steps: seq<Step>)
    requires forall s | s in steps :: !s.IsProgress()
    ensures ProgressValues(steps) == []
    decreases |steps|
  {
    if steps != [] {
      assert steps[0] in steps;
      assert forall s | s in steps[1..] :: s in steps;
      NoProgressValues(steps[1..]);
    }
  }

  lemma ProgressValuesOne(s: Step)
    ensures ProgressValues([s]) == PercentOf(s)
  {
    assert [s][1..] == [];
  }

  /** Steps without a percentage followed by the percentage `p`. */
  lemma ProgressValuesEndingIn(pre: seq<Step>, last: Step)
    requires forall s | s in pre :: !s.IsProgress()
    requires last.IsProgress()
    ensures ProgressValues(pre + [last]) == [last.signal.percent]
  {
    NoProgressValues(pre);
    ProgressValuesAppend(pre, [last]);
    ProgressValuesOne(last);
  }

  /** What one iteration contributes: no percentage, or the one for its
      index, and always that one when the file was counted. */
  predicate FileProgress(f: FileResult, count: nat, p: int) {
    var pv := ProgressValues(f.steps);
    && (pv == [] || pv == [p])
    && (f.count == count + 1 ==> pv == [p])
  }

  lemma TranscodeProgress(total: nat, idx: nat, name: string, channels: int, args: seq<string>,
                          reply: TranscodeReply, count: nat, checks: nat, cancelAt: Option<nat>)
    requires idx < total
    ensures var t := TranscodeBranch(total, idx, name, channels, args, reply, count, checks, cancelAt);
            && FileProgress(t, count, Percent(idx, total))
            && (t.stop.None? ==> ProgressValues(t.steps) == [Percent(idx, total)])
  {
    var t := TranscodeBranch(total, idx, name, channels, args, reply, count, checks, cancelAt);
    var announce := [Emit(Log(Processing(name, channels))), Emit(Log(CommandLine(args)))];
    match reply
    case SpawnRaises =>
      NoProgressValues(announce);
    case Runs(lines, readRaises) =>
      var d := Drain(lines, 0, checks, cancelAt);
      DrainLogsOnly(lines, 0, checks, cancelAt);
      var ran := announce + [Spawn(idx, args)] + d.logged;
      assert forall s | s in ran :: !s.IsProgress();
      if d.cancelled {
        NoProgressValues(ran + CancelTail(CancelledDuringTranscode(idx)));
      } else if readRaises {
        NoProgressValues(ran);
      } else {
        var progress := Emit(Progress(Percent(idx, total)));
        assert t.steps == (ran + [Wait(idx)]) + [progress];
        ProgressValuesEndingIn(ran + [Wait(idx)], progress);
      }
  }

  lemma CopyProgress(total: nat, idx: nat, name: string, channels: int, src: string, dst: string,
                     succeeds: bool, count: nat, checks: nat)
    requires idx < total
    ensures var c := CopyBranch(total, idx, name, channels, src, dst, succeeds, count, checks);
            ProgressValues(c.steps) == [Percent(idx, total)]
  {
    var copy := [Emit(Log(Copying(name, channels))), Copy(idx, src, dst)];
    var progress := Emit(Progress(Percent(idx, total)));
    if succeeds {
      ProgressValuesEndingIn(copy, progress);
    } else {
      assert copy + [Emit(Log(CopyFailed(name))), progress] == (copy + [Emit(Log(CopyFailed(name)))]) + [progress];
      ProgressValuesEndingIn(copy + [Emit(Log(CopyFailed(name)))], progress);
    }
  }

  lemma AttemptProgress(job: Job, total: nat, idx: nat, entry: Entry, count: nat, checks: nat,
                        cancelAt: Option<nat>)
    requires idx < total
    ensures FileProgress(Attempt(job, total, idx, entry, count, checks, cancelAt), count, Percent(idx, total))
    ensures var a := Attempt(job, total, idx, entry, count, checks, cancelAt);
            a.stop.None? && ProbeChannels(entry.world.probe).Some? ==>
              ProgressValues(a.steps) == [Percent(idx, total)]
  {
    var src := Paths.Join(job.inputFolder, entry.name);
    var dst := Paths.Join(job.outputFolder, entry.name);
    var action := Plan(ProbeChannels(entry.world.probe), job.channels, FfmpegPath(job), src, dst);
    var probe := [Probe(idx, ProbeCommand(FfprobePath(job), src))];
    var r := Act(total, idx, entry.name, job.channels, src, dst, action, entry.world, count, checks, cancelAt);
    ProgressValuesAppend(probe, r.steps);
    NoProgressValues(probe);
    match action
    case ReportUnreadable =>
      NoProgressValues(r.steps);
    case CopyAsIs =>
      CopyProgress(total, idx, entry.name, job.channels, src, dst, entry.world.copySucceeds, count, checks);
    case Reencode(args) =>
      TranscodeProgress(total, idx, entry.name, job.channels, args, entry.world.transcode, count, checks, cancelAt);
  }

  lemma FileStepProgress(job: Job, total: nat, idx: nat, entry: Entry, count: nat, checks: nat,
                         cancelAt: Option<nat>)
    requires idx < total
    ensures FileProgress(ProcessFile(job, total, idx, entry, count, checks, cancelAt), count, Percent(idx, total))
    ensures var f := ProcessFile(job, total, idx, entry, count, checks, cancelAt);
            f.stop.None? && ProbeChannels(entry.world.probe).Some? ==>
              ProgressValues(f.steps) == [Percent(idx, total)]
  {
    if Flagged(cancelAt, checks) {
      ProgressValuesOne(Emit(Log(CancelledByUser)));
    } else {
      AttemptProgress(job, total, idx, entry, count, checks + 1, cancelAt);
    }
  }

  /** Every percentage among `steps` lies in `lo..hi`. */
  predicate PercentsWithin(steps: seq<Step>, lo: int, hi: int) {
    forall s | s in steps && s.IsProgress() :: lo <= s.signal.percent <= hi
  }

  /** The percentages among `steps` never go down. */
  predicate PercentsAscending(steps: seq<Step>) {
    forall i, j | 0 <= i < j < |steps| && steps[i].IsProgress() && steps[j].IsProgress() ::
      steps[i].signal.percent <= steps[j].signal.percent
  }

  /** The steps that carry a percentage are exactly those whose percentage
      `ProgressValues` lists. */
  lemma {:induction false} ProgressValuesMembers(steps: seq<Step>)
    ensures forall s | s in steps && s.IsProgress() :: s.signal.percent in ProgressValues(steps)
    ensures forall p | p in ProgressValues(steps) :: Emit(Progress(p)) in steps
    decreases |steps|
  {
    if steps != [] {
      ProgressValuesMembers(steps[1..]);
      assert ProgressValues(steps) == PercentOf(steps[0]) + ProgressValues(steps[1..]);
      assert steps == [steps[0]] + steps[1..];
    }
  }

  /** What one iteration contributes, read as a set of steps: only its own
      percentage, always that one when the file was counted, and also when
      the file was probed and the loop goes on. */
  lemma FilePercents(job: Job, total: nat, idx: nat, entry: Entry, count: nat, checks: nat,
                     cancelAt: Option<nat>)
    requires idx < total
    ensures var f := ProcessFile(job, total, idx, entry, count, checks, cancelAt);
            var p := Percent(idx, total);
            && PercentsWithin(f.steps, p, p)
            && (f.count == count + 1 ==> Emit(Progress(p)) in f.steps)
            && (f.stop.None? && ProbeChannels(entry.world.probe).Some? ==> Emit(Progress(p)) in f.steps)
  {
    var f := ProcessFile(job, total, idx, entry, count, checks, cancelAt);
    FileStepProgress(job, total, idx, entry, count, checks, cancelAt);
    SingleValueMembers(f.steps, Percent(idx, total));
  }

  /** Steps listing no percentage or only `p` carry no other percentage,
      and carry `p` when they list it. */
  lemma SingleValueMembers(steps: seq<Step>, p: int)
    requires ProgressValues(steps) == [] || ProgressValues(steps) == [p]
    ensures PercentsWithin(steps, p, p)
    ensures ProgressValues(steps) == [p] ==> Emit(Progress(p)) in steps
  {
    ProgressValuesMembers(steps);
  }

  /** Steps whose percentages all equal `p` trivially never go down. */
  lemma ConstantAscending(steps: seq<Step>, p: int)
    requires PercentsWithin(steps, p, p)
    ensures PercentsAscending(steps)
  {
    forall i, j | 0 <= i < j < |steps| && steps[i].IsProgress() && steps[j].IsProgress()
      ensures steps[i].signal.percent <= steps[j].signal.percent
    {
      assert steps[i] in steps && steps[j] in steps;
    }
  }

  /** Ascending steps with percentages up to `m`, followed by ascending
      steps with percentages from `m` on, are ascending. */
  lemma ConcatAscending(a: seq<Step>, b: seq<Step>, lo: int, m: int, hi: int)
    requires PercentsAscending(a) && PercentsWithin(a, lo, m)
    requires PercentsAscending(b) && PercentsWithin(b, m, hi)
    requires lo <= m <= hi
    ensures PercentsAscending(a + b) && PercentsWithin(a + b, lo, hi)
  {
    var ab := a + b;
    forall i, j | 0 <= i < j < |ab| && ab[i].IsProgress() && ab[j].IsProgress()
      ensures ab[i].signal.percent <= ab[j].signal.percent
    {
      if j < |a| {
        assert ab[i] == a[i] && ab[j] == a[j];
      } else if i < |a| {
        assert ab[i] == a[i] && a[i] in a;
        assert ab[j] == b[j - |a|] && b[j - |a|] in b;
      } else {
        assert ab[i] == b[i - |a|] && ab[j] == b[j - |a|];
      }
    }
    forall s | s in ab && s.IsProgress() ensures lo <= s.signal.percent <= hi {
      assert s in a || s in b;
    }
  }

  /** The loop from file `idx` on emits percentages within
      `Percent(idx, total)..100` that never go down. */
  lemma {:induction false} LoopPercents(job: Job, files: seq<Entry>, idx: nat, count: nat, checks: nat,
                                        cancelAt: Option<nat>)
    requires idx < |files|
    ensures var r := Loop(job, files, idx, count, checks, cancelAt);
            PercentsAscending(r.steps) && PercentsWithin(r.steps, Percent(idx, |files|), 100)
    decreases |files| - idx
  {
    var p := Percent(idx, |files|);
    var f := ProcessFile(job, |files|, idx, files[idx], count, checks, cancelAt);
    FilePercents(job, |files|, idx, files[idx], count, checks, cancelAt);
    ConstantAscending(f.steps, p);
    LoopStep(job, files, idx, count, checks, cancelAt);
    if f.stop.None? {
      var rest := Loop(job, files, idx + 1, f.count, f.checks, cancelAt);
      if idx + 1 < |files| {
        LoopPercents(job, files, idx + 1, f.count, f.checks, cancelAt);
        PercentMonotone(idx, idx + 1, |files|);
      } else {
        assert rest.steps == [];
      }
      ConcatAscending(f.steps, rest.steps, p, p, 100);
    }
  }

  /** A completed loop whose last file could be probed emits that file's
      percentage. */
  lemma {:induction false} LoopReachesLastFile(job: Job, files: seq<Entry>, idx: nat, count: nat, checks: nat,
                                               cancelAt: Option<nat>)
    requires idx < |files|
    requires Loop(job, files, idx, count, checks, cancelAt).ending == Completed
    requires ProbeChannels(files[|files| - 1].world.probe).Some?
    ensures Emit(Progress(Percent(|files| - 1, |files|))) in Loop(job, files, idx, count, checks, cancelAt).steps
    decreases |files| - idx
  {
    var f := ProcessFile(job, |files|, idx, files[idx], count, checks, cancelAt);
    NoFinishedInFile(job, |files|, idx, files[idx], count, checks, cancelAt);
    LoopStep(job, files, idx, count, checks, cancelAt);
    assert f.stop.None?;
    var rest := Loop(job, files, idx + 1, f.count, f.checks, cancelAt);
    assert Loop(job, files, idx, count, checks, cancelAt).steps == f.steps + rest.steps;
    if idx + 1 < |files| {
      LoopReachesLastFile(job, files, idx + 1, f.count, f.checks, cancelAt);
    } else {
      FilePercents(job, |files|, idx, files[idx], count, checks, cancelAt);
    }
  }

  /** Every file the loop counts from `idx` on emitted a percentage. */
  lemma {:induction false} LoopCountedProgress(job: Job, files: seq<Entry>, idx: nat, count: nat, checks: nat,
                                               cancelAt: Option<nat>)
    requires idx <= |files|
    ensures var r := Loop(job, files, idx, count, checks, cancelAt);
            r.count - count <= |ProgressValues(r.steps)|
    decreases |files| - idx
  {
    var r := Loop(job, files, idx, count, checks, cancelAt);
    if idx < |files| {
      var f := ProcessFile(job, |files|, idx, files[idx], count, checks, cancelAt);
      FileStepProgress(job, |files|, idx, files[idx], count, checks, cancelAt);
      NoFinishedInFile(job, |files|, idx, files[idx], count, checks, cancelAt);
      if f.stop.None? {
        var rest := Loop(job, files, idx + 1, f.count, f.checks, cancelAt);
        assert r.steps == f.steps + rest.steps && r.count == rest.count;
        ProgressValuesAppend(f.steps, rest.steps);
        LoopCountedProgress(job, files, idx + 1, f.count, f.checks, cancelAt);
      } else {
        assert r.steps == f.steps && r.count == f.count;
      }
    }
  }


  /** Over a whole run: percentages within 0..100 that never go down. */
  lemma RunPercents(job: Job, dir: Directory, cancelAt: Option<nat>)
    ensures var t := Run(job, dir, cancelAt).trace;
            PercentsAscending(t) && PercentsWithin(t, 0, 100)
  {
    var t := Run(job, dir, cancelAt).trace;
    match dir
    case ListingRaises =>
      assert t == [Emit(Finished(0))];
    case Listed(entries) =>
      var files := Select(entries);
      var l := Loop(job, files, 0, 0, 0, cancelAt);
      RunOfListing(job, entries, cancelAt);
      var tail := [Emit(Finished(l.count))];
      assert PercentsAscending(tail) && PercentsWithin(tail, 100, 100);
      if files != [] {
        LoopPercents(job, files, 0, 0, 0, cancelAt);
        ConcatAscending(l.steps, tail, 0, 100, 100);
      } else {
        assert t == tail;
      }
  }

  /** The count `finished` carries is at most the number of percentages
      the run emitted: every counted file reported progress. */
  lemma RunCountedProgress(job: Job, dir: Directory, cancelAt: Option<nat>)
    ensures var r := Run(job, dir, cancelAt);
            r.count <= |ProgressValues(r.trace)|
  {
    match dir
    case ListingRaises =>
    case Listed(entries) =>
      var l := Loop(job, Select(entries), 0, 0, 0, cancelAt);
      RunOfListing(job, entries, cancelAt);
      LoopCountedProgress(job, Select(entries), 0, 0, 0, cancelAt);
      ProgressValuesAppend(l.steps, [Emit(Finished(l.count))]);
  }

  /** A run that goes through all its files, the last of which could be
      probed, reports 100, and nothing after that reports less: 100 is its
      final percentage. */
  lemma CompletedRunEndsAtHundred(job: Job, entries: seq<Entry>, cancelAt: Option<nat>)
    requires Select(entries) != []
    requires Run(job, Listed(entries), cancelAt).ending == Completed
    requires ProbeChannels(Select(entries)[|Select(entries)| - 1].world.probe).Some?
    ensures var t := Run(job, Listed(entries), cancelAt).trace;
            && Emit(Progress(100)) in t
            && forall i, j | 0 <= i < j < |t| && t[i] == Emit(Progress(100)) && t[j].IsProgress() ::
                 t[j].signal.percent == 100
  {
    var files := Select(entries);
    var l := Loop(job, files, 0, 0, 0, cancelAt);
    RunOfListing(job, entries, cancelAt);
    LoopReachesLastFile(job, files, 0, 0, 0, cancelAt);
    RunPercents(job, Listed(entries), cancelAt);
  }
}

=== FILE: selection.dfy ===
/** Which directory entries the worker processes (main.py:199): those whose
    lower-cased name ends in ".mp4" or ".mov", in listing order. */
module Selection {
  import opened Text
  import opened Environment

  /** `name.lower().endswith(('.mp4', '.mov'))`, characterised letter by
      letter: a dot, then "mp4" or "mov" in any mix of cases. */
  function IsVideoName(name: string): (b: bool)
    ensures b <==> |name| >= 4 && name[|name| - 4] == '.' &&
                   (name[|name| - 3] == 'm' || name[|name| - 3] == 'M') &&
                   (((name[|name| - 2] == 'p' || name[|name| - 2] == 'P') && name[|name| - 1] == '4') ||
                    ((name[|name| - 2] == 'o' || name[|name| - 2] == 'O') &&
                     (name[|name| - 1] == 'v' || name[|name| - 1] == 'V')))
  {
    var lower := Lower(name);
    EndsWithFour(lower, '.', 'm', 'p', '4');
    EndsWithFour(lower, '.', 'm', 'o', 'v');
    EndsWith(lower, ".mp4") || EndsWith(lower, ".mov")
  }

  lemma EndsWithFour(s: string, a: char, b: char, c: char, d: char)
    ensures EndsWith(s, [a, b, c, d]) <==>
            |s| >= 4 && s[|s| - 4] == a && s[|s| - 3] == b && s[|s| - 2] == c && s[|s| - 1] == d
  {
    if |s| >= 4 && s[|s| - 4] == a && s[|s| - 3] == b && s[|s| - 2] == c && s[|s| - 1] == d {
      assert s[|s| - 4..] == [a, b, c, d];
    }
  }

  /** The list comprehension over the listing. */
  function Select(entries: seq<Entry>): (r: seq<Entry>)
    ensures |r| <= |entries|
    ensures forall e :: e in r <==> e in entries && IsVideoName(e.name)
  {
    if entries == [] then []
    else (if IsVideoName(entries[0].name) then [entries[0]] else []) + Select(entries[1..])
  }

  /** Filtering distributes over concatenation: together with the one-entry
      case this determines the selection completely, so entries keep their
      listing order and multiplicity. */
  lemma {:induction false} SelectAppend(a: seq<Entry>, b: seq<Entry>)
    ensures Select(a + b) == Select(a) + Select(b)
    decreases |a|
  {
    if a == [] {
      assert a + b == b;
    } else {
      assert (a + b)[1..] == a[1..] + b;
      SelectAppend(a[1..], b);
    }
  }

  /** `a` can be obtained from `b` by deleting elements. */
  predicate IsSubsequence<T(==)>(a: seq<T>, b: seq<T>)
    decreases |b|
  {
    if a == [] then true
    else if b == [] then false
    else if a[0] == b[0] then IsSubsequence(a[1..], b[1..])
    else IsSubsequence(a, b[1..])
  }

  lemma {:induction false} SelectIsSubsequence(entries: seq<Entry>)
    ensures IsSubsequence(Select(entries), entries)
    decreases |entries|
  {
    if entries != [] {
      SelectIsSubsequence(entries[1..]);
      var rest := Select(entries[1..]);
      if IsVideoName(entries[0].name) {
        assert Select(entries) == [entries[0]] + rest;
        assert ([entries[0]] + rest)[1..] == rest;
      } else {
        assert Select(entries) == rest;
        // a rejected entry cannot head the selection of the remainder
        assert rest != [] ==> rest[0] in rest;
      }
    }
  }
}

=== FILE: text.dfy ===
/** The pieces of Python's string behaviour the worker relies on:
    `str.strip()`, `sep.join(parts)`, `str(n)`, `int(s)`, `str.lower()` and
    `str.endswith(...)`, each with an independent characterisation or an
    inverse it is proved against. */
module Text {
  import opened Wrappers

  /** Python's `str.isspace()` on one character: the ASCII controls
      TAB..CR and FS..US, SPACE, NEL, NBSP and the Unicode space separators. */
  predicate IsSpace(c: char) {
    || ('\t' <= c <= '\r')
    || ('\U{1C}' <= c <= '\U{1F}')
    || c == ' '
    || c == '\U{85}'
    || c == '\U{A0}'
    || c == '\U{1680}'
    || ('\U{2000}' <= c <= '\U{200A}')
    || c == '\U{2028}'
    || c == '\U{2029}'
    || c == '\U{202F}'
    || c == '\U{205F}'
    || c == '\U{3000}'
  }

  predicate AllSpace(s: string) {
    forall k :: 0 <= k < |s| ==> IsSpace(s[k])
  }

  /** No whitespace at either end: the shape of anything `str.strip()` returns. */
  predicate IsStripped(s: string) {
    s == [] || (!IsSpace(s[0]) && !IsSpace(s[|s| - 1]))
  }

  /** `str.lstrip()`: drop leading whitespace. */
  function TrimStart(s: string): string
  {
    s[SkipSpaces(s, 0)..]
  }

  /** The index of the first non-whitespace character of `s` from `i` on,
      or `|s|` if there is none. */
  function SkipSpaces(s: string, i: nat): (j: nat)
    requires i <= |s|
    ensures i <= j <= |s|
    decreases |s| - i
  {
    if i < |s| && IsSpace(s[i]) then SkipSpaces(s, i + 1) else i
  }

  /** `str.rstrip()`: drop trailing whitespace. */
  function TrimEnd(s: string): string
  {
    if s != [] && IsSpace(s[|s| - 1]) then TrimEnd(s[..|s| - 1]) else s
  }

  /** What `lstrip` leaves: a suffix of `s`, after only whitespace, that
      does not itself start with whitespace. */
  lemma TrimStartShape(s: string)
    ensures var r := TrimStart(s);
            && |r| <= |s| && r == s[|s| - |r|..]
            && AllSpace(s[..|s| - |r|])
            && (r == [] || !IsSpace(r[0]))
  {
    SkipSpacesShape(s, 0);
  }

  /** `SkipSpaces` passes over whitespace only and stops at a character
      that is not whitespace, or at the end. */
  lemma {:induction false} SkipSpacesShape(s: string, i: nat)
    requires i <= |s|
    ensures var j := SkipSpaces(s, i);
            && (forall k :: i <= k < j ==> IsSpace(s[k]))
            && (j < |s| ==> !IsSpace(s[j]))
    decreases |s| - i
  {
    if i < |s| && IsSpace(s[i]) {
      SkipSpacesShape(s, i + 1);
    }
  }

  /** What `rstrip` leaves: a prefix of `s`, before only whitespace, that
      does not itself end with whitespace. */
  lemma {:induction false} TrimEndShape(s: string)
    ensures var r := TrimEnd(s);
            && |r| <= |s| && r == s[..|r|]
            && AllSpace(s[|r|..])
            && (r == [] || !IsSpace(r[|r| - 1]))
    decreases |s|
  {
    if s != [] && IsSpace(s[|s| - 1]) {
      var t := s[..|s| - 1];
      var r := TrimEnd(t);
      TrimEndShape(t);
      assert TrimEnd(s) == r;
      assert t[..|r|] == s[..|r|];
      var post := s[|r|..];
      assert AllSpace(post) by {
        forall k | 0 <= k < |post| ensures IsSpace(post[k]) {
          if k < |post| - 1 {
            assert post[k] == t[|r|..][k];
          } else {
            assert post[k] == s[|s| - 1];
          }
        }
      }
    }
  }

  /** `str.strip()`. */
  function Strip(s: string): string
  {
    TrimEnd(TrimStart(s))
  }

  /** What `str.strip()` returns: the slice of `s` with no whitespace at
      either end that is surrounded only by whitespace. */
  lemma StripIsTrimmedSlice(s: string)
    ensures IsStripped(Strip(s))
    ensures exists i :: 0 <= i <= i + |Strip(s)| <= |s| && Strip(s) == s[i..i + |Strip(s)|]
                        && AllSpace(s[..i]) && AllSpace(s[i + |Strip(s)|..])
  {
    var t := TrimStart(s);
    var r := TrimEnd(t);
    TrimStartShape(s);
    TrimEndShape(t);
    var i := |s| - |t|;
    assert r == s[i..i + |r|];
    assert s[i + |r|..] == t[|r|..];
  }

  lemma TrimStartOfSpaces(a: string, s: string)
    requires AllSpace(a)
    requires s == [] || !IsSpace(s[0])
    ensures TrimStart(a + s) == s
  {
    SkipLeadingSpaces(a, s, 0);
    assert (a + s)[|a|..] == s;
  }

  lemma {:induction false} SkipLeadingSpaces(a: string, s: string, i: nat)
    requires AllSpace(a) && i <= |a|
    requires s == [] || !IsSpace(s[0])
    ensures SkipSpaces(a + s, i) == |a|
    decreases |a| - i
  {
    var t := a + s;
    if i < |a| {
      assert t[i] == a[i];
      SkipLeadingSpaces(a, s, i + 1);
    } else if s != [] {
      assert t[i] == s[0];
    }
  }

  lemma {:induction false} TrimEndOfSpaces(s: string, b: string)
    requires AllSpace(b)
    requires s == [] || !IsSpace(s[|s| - 1])
    ensures TrimEnd(s + b) == s
    decreases |b|
  {
    if b != [] {
      assert (s + b)[..|s + b| - 1] == s + b[..|b| - 1];
      TrimEndOfSpaces(s, b[..|b| - 1]);
    } else {
      assert s + b == s;
    }
  }

  /** Surrounding a stripped text with whitespace and stripping it again
      gives the text back; with empty padding this is idempotence. */
  lemma StripSurrounded(a: string, s: string, b: string)
    requires AllSpace(a) && AllSpace(b) && IsStripped(s)
    ensures Strip(a + s + b) == s
  {
    if s == [] {
      assert a + s + b == a + b;
      TrimStartOfSpaces(a + b, []);
      assert a + b + [] == a + b;
      TrimEndOfSpaces([], []);
    } else {
      assert a + s + b == a + (s + b);
      TrimStartOfSpaces(a, s + b);
      TrimEndOfSpaces(s, b);
    }
  }

  lemma StripIdempotent(s: string)
    ensures Strip(Strip(s)) == Strip(s)
  {
    var r := Strip(s);
    StripIsTrimmedSlice(s);
    StripSurrounded([], r, []);
    assert [] + r + [] == r;
  }

  /** Python's `sep.join(parts)` for a one-character separator. */
  function JoinWith(sep: char, parts: seq<string>): string
  {
    if |parts| == 0 then ""
    else if |parts| == 1 then parts[0]
    else parts[0] + [sep] + JoinWith(sep, parts[1..])
  }

  /** Index of the first `c` in `s`, or `|s|` when there is none. */
  function FirstIndex(s: string, c: char): (i: nat)
    ensures i <= |s|
    ensures i < |s| ==> s[i] == c
    ensures c !in s[..i]
  {
    if s == [] then 0
    else if s[0] == c then 0
    else
      var i := 1 + FirstIndex(s[1..], c);
      assert s[..i] == [s[0]] + s[1..][..i - 1];
      i
  }

  /** Python's `s.split(sep)` for a one-character separator. */
  function SplitOn(sep: char, s: string): (r: seq<string>)
    ensures |r| >= 1
    ensures forall k :: 0 <= k < |r| ==> sep !in r[k]
    decreases |s|
  {
    var i := FirstIndex(s, sep);
    if i == |s| then
      assert s[..i] == s;
      [s]
    else
      [s[..i]] + SplitOn(sep, s[i + 1..])
  }

  /** Joining then splitting on the same separator gives the parts back,
      provided no part contains the separator. */
  lemma {:induction false} SplitJoin(sep: char, parts: seq<string>)
    requires |parts| >= 1
    requires forall k :: 0 <= k < |parts| ==> sep !in parts[k]
    ensures SplitOn(sep, JoinWith(sep, parts)) == parts
    decreases |parts|
  {
    var p := parts[0];
    if |parts| == 1 {
      assert FirstIndex(p, sep) == |p|;
    } else {
      var s := JoinWith(sep, parts);
      var rest := JoinWith(sep, parts[1..]);
      assert s == p + [sep] + rest;
      assert s[..|p|] == p && s[|p|] == sep;
      assert FirstIndex(s, sep) == |p|;
      assert s[|p| + 1..] == rest;
      SplitJoin(sep, parts[1..]);
      assert [p] + parts[1..] == parts;
    }
  }

  predicate IsDigit(c: char) {
    '0' <= c <= '9'
  }

  predicate AllDigits(s: string) {
    forall k :: 0 <= k < |s| ==> IsDigit(s[k])
  }

  function DigitValue(c: char): nat
    requires IsDigit(c)
  {
    c as int - '0' as int
  }

  function DigitChar(d: nat): (c: char)
    requires d < 10
    ensures IsDigit(c) && DigitValue(c) == d
  {
    ('0' as int + d) as char
  }

  /** Python's `str(n)` for `n >= 0`: decimal digits without leading zeros. */
  function NatToDecimal(n: nat): (r: string)
    ensures |r| >= 1 && AllDigits(r)
    ensures r[0] == '0' <==> r == "0"
    ensures r == "0" <==> n == 0
  {
    if n < 10 then [DigitChar(n)]
    else NatToDecimal(n / 10) + [DigitChar(n % 10)]
  }

  /** The number a string of decimal digits denotes (leading zeros allowed). */
  function DecimalValue(s: string): nat
    requires AllDigits(s)
  {
    if s == [] then 0
    else DecimalValue(s[..|s| - 1]) * 10 + DigitValue(s[|s| - 1])
  }

  lemma {:induction false} DecimalRoundTrip(n: nat)
    ensures DecimalValue(NatToDecimal(n)) == n
  {
    if n >= 10 {
      var s := NatToDecimal(n);
      assert s[..|s| - 1] == NatToDecimal(n / 10);
      DecimalRoundTrip(n / 10);
    }
  }

  /** Decimal digits as `str` prints a non-negative number: at least one,
      and no leading zero unless the number is zero. */
  predicate IsCanonicalDecimal(d: string) {
    |d| >= 1 && AllDigits(d) && (d[0] == '0' ==> d == "0")
  }

  /** Text as `str` prints an integer: canonical digits, or a minus sign
      followed by the canonical digits of a non-zero number. */
  predicate IsCanonicalInt(t: string) {
    || IsCanonicalDecimal(t)
    || (|t| >= 2 && t[0] == '-' && IsCanonicalDecimal(t[1..]) && t[1..] != "0")
  }

  /** Canonical digits are the printed form of the number they denote. */
  lemma {:induction false} CanonicalDecimalPrinted(d: string)
    requires IsCanonicalDecimal(d)
    ensures NatToDecimal(DecimalValue(d)) == d
    decreases |d|
  {
    var last := d[|d| - 1];
    assert DigitChar(DigitValue(last)) == last;
    if |d| >= 2 {
      var p := d[..|d| - 1];
      assert p[0] == d[0] && p[0] != '0';
      assert IsCanonicalDecimal(p);
      CanonicalDecimalPrinted(p);
      var v := DecimalValue(d);
      assert v == DecimalValue(p) * 10 + DigitValue(last);
      assert DecimalValue(p) != 0 by {
        if DecimalValue(p) == 0 {
          assert false;
        }
      }
      assert v / 10 == DecimalValue(p) && v % 10 == DigitValue(last);
      assert NatToDecimal(v) == NatToDecimal(v / 10) + [DigitChar(v % 10)];
      assert d == p + [last];
    }
  }

  /** Python's `str(n)`: a minus sign for negative numbers, then the digits.
      It is in canonical form, has no surrounding whitespace and `int` reads
      it back as `n`; `IntToStringUnique` shows these facts determine it. */
  function IntToString(n: int): (r: string)
    ensures IsCanonicalInt(r)
    ensures IsStripped(r)
    ensures ParseLiteral(r) == Some(n)
  {
    var m: nat := if n < 0 then -n else n;
    var d := NatToDecimal(m);
    if n < 0 then
      SignedDecimalForm(d, m);
      "-" + d
    else
      DecimalForm(d, m);
      d
  }

  /** The digits printed for `m` are canonical, stripped and read back as `m`. */
  lemma DecimalForm(d: string, m: nat)
    requires d == NatToDecimal(m)
    ensures IsCanonicalDecimal(d) && IsStripped(d) && ParseLiteral(d) == Some(m)
  {
    DecimalRoundTrip(m);
    assert IsDigit(d[0]) && IsDigit(d[|d| - 1]);
  }

  /** A minus sign before the digits printed for a positive `m` gives
      canonical, stripped text read back as `-m`. */
  lemma SignedDecimalForm(d: string, m: nat)
    requires d == NatToDecimal(m) && m != 0
    ensures IsCanonicalInt("-" + d) && IsStripped("-" + d) && ParseLiteral("-" + d) == Some(-(m as int))
  {
    DecimalForm(d, m);
    var r := "-" + d;
    assert r[0] == '-' && r[1..] == d;
    assert IsCanonicalDecimal(r[1..]) && r[1..] != "0";
    assert r[|r| - 1] == d[|d| - 1];
    assert IsStripped(r);
    assert DecimalValue(r[1..]) == m;
  }

  /** The only canonical text `int` reads as `n` is `str(n)`. */
  lemma IntToStringUnique(t: string, n: int)
    requires IsCanonicalInt(t) && ParseLiteral(t) == Some(n)
    ensures t == IntToString(n)
  {
    if IsCanonicalDecimal(t) {
      assert IsDigit(t[0]);
      CanonicalDecimalPrinted(t);
    } else {
      var body := t[1..];
      CanonicalDecimalPrinted(body);
      assert DecimalValue(body) != 0;
      assert n == -(DecimalValue(body) as int);
      assert t == "-" + body;
    }
  }

  /** Python's `int(s)`: surrounding whitespace, an optional sign and at least
      one decimal digit; anything else is the ValueError, here `None`. */
  function ParseInt(s: string): Option<int>
  {
    ParseLiteral(Strip(s))
  }

  /** `int` on text already stripped of surrounding whitespace. */
  function ParseLiteral(t: string): Option<int>
  {
    if t == [] then None
    else
      var body := if t[0] == '-' || t[0] == '+' then t[1..] else t;
      if body != [] && AllDigits(body) then
        Some(if t[0] == '-' then -(DecimalValue(body) as int) else DecimalValue(body))
      else
        None
  }

  /** `int(str(n)) == n`, and padding with whitespace does not change it. */
  lemma IntRoundTrip(n: int, a: string, b: string)
    requires AllSpace(a) && AllSpace(b)
    ensures ParseInt(a + IntToString(n) + b) == Some(n)
  {
    StripSurrounded(a, IntToString(n), b);
  }

  lemma IntToStringParses(n: int)
    ensures ParseInt(IntToString(n)) == Some(n)
  {
    IntRoundTrip(n, [], []);
    assert [] + IntToString(n) + [] == IntToString(n);
  }

  /** Python's `str.lower()` restricted to ASCII letters. */
  function LowerChar(c: char): char {
    if 'A' <= c <= 'Z' then (c as int + 32) as char else c
  }

  /** Lower-casing leaves no upper-case ASCII letter behind, moves each one
      to its lower-case partner and keeps every other character. */
  function Lower(s: string): (r: string)
    ensures |r| == |s|
    ensures forall k :: 0 <= k < |r| ==> !('A' <= r[k] <= 'Z')
    ensures forall k :: 0 <= k < |s| && 'A' <= s[k] <= 'Z' ==> r[k] as int - s[k] as int == 'a' as int - 'A' as int
    ensures forall k :: 0 <= k < |s| && !('A' <= s[k] <= 'Z') ==> r[k] == s[k]
  {
    seq(|s|, k requires 0 <= k < |s| => LowerChar(s[k]))
  }

  /** Lower-casing an already lower-cased text changes nothing. */
  lemma LowerIdempotent(s: string)
    ensures Lower(Lower(s)) == Lower(s)
  {
  }

  /** Python's `s.endswith(suffix)`. */
  predicate EndsWith(s: string, suffix: string) {
    |suffix| <= |s| && s[|s| - |suffix|..] == suffix
  }
}

=== FILE: worker.dfy ===
/** `FFmpegWorker.run` (main.py:197-249) as a pure function from the worker's
    arguments, the outside world and the moment `cancel()` takes effect, to
    the trace of what the worker does and emits, the final
    `processed_count`, and how the run ended. */
module Worker {
  import opened Wrappers
  import opened Text
  import Paths
  import opened Environment
  import opened Selection
  import opened Planner

  /** The log lines the worker emits, by what they carry.  The file names
      and channel counts are modelled; the decoration around them (emoji,
      the text of a caught exception) is not.  The two lines whose whole
      text is data are kept as that data, and `EchoText` and `RelayText`
      below give the string the worker builds from it. */
  datatype Message =
    | CancelledByUser                          // main.py:204
    | AnalyzeFailed(file: string)              // main.py:217
    | Copying(file: string, channels: int)     // main.py:221
    | CopyFailed(file: string)                 // main.py:227
    | Processing(file: string, channels: int)  // main.py:233
    | CommandLine(args: seq<string>)           // main.py:234
    | ToolOutput(line: string)                 // main.py:243
    | ProcessTerminated                        // main.py:240

  /** The text emitted for the echoed command (`" ".join(cmd) + "\n"`) and
      for a relayed line of ffmpeg's output (`line.strip()`). */
  function EchoText(args: seq<string>): string {
    JoinWith(' ', args) + "\n"
  }

  function RelayText(line: string): string {
    Strip(line)
  }

  /** The echoed command line can be read back into the argument list by
      dropping the newline and splitting on spaces, as long as no argument
      holds a space. */
  lemma EchoTextSplits(args: seq<string>)
    requires |args| >= 1
    requires forall k :: 0 <= k < |args| ==> ' ' !in args[k]
    ensures |EchoText(args)| >= 1 && EchoText(args)[|EchoText(args)| - 1] == '\n'
    ensures SplitOn(' ', EchoText(args)[..|EchoText(args)| - 1]) == args
  {
    var j := JoinWith(' ', args);
    assert EchoText(args)[..|EchoText(args)| - 1] == j;
    SplitJoin(' ', args);
  }

  /** A relayed line loses exactly the whitespace around it. */
  lemma RelayTextStrips(before: string, text: string, after: string)
    requires AllSpace(before) && AllSpace(after) && IsStripped(text)
    ensures RelayText(before + text + after) == text
  {
    StripSurrounded(before, text, after);
  }

  /** The worker's three Qt signals (main.py:178-180). */
  datatype Signal = Log(message: Message) | Progress(percent: int) | Finished(processed: nat)

  /** One thing the worker does, in order: emit a signal, or act on the
      outside world on behalf of the file with index `file` in the
      selection. */
  datatype Step =
    | Emit(signal: Signal)
    | Probe(file: nat, args: seq<string>)
    | Copy(file: nat, src: string, dst: string)
    | Spawn(file: nat, args: seq<string>)
    | Terminate(file: nat)
    | Wait(file: nat)
  {
    predicate IsFinished() {
      Emit? && signal.Finished?
    }

    /** Starting work on a file: probing, copying or launching ffmpeg. */
    predicate IsWork() {
      Probe? || Copy? || Spawn?
    }

    predicate IsProgress() {
      Emit? && signal.Progress?
    }
  }

  predicate NoFinished(steps: seq<Step>) {
    forall s | s in steps :: !s.IsFinished()
  }

  /** The exceptions that escape the `try` of main.py:198. */
  datatype Failure =
    | ListingFailed           // os.listdir raised
    | SpawnFailed(file: nat)  // subprocess.Popen raised
    | OutputFailed(file: nat) // reading ffmpeg's output raised

  datatype Ending =
    | Completed                            // the for loop ran out of files
    | CancelledBeforeFile(file: nat)       // the return of main.py:205
    | CancelledDuringTranscode(file: nat)  // the return of main.py:242
    | Raised(failure: Failure)
  {
    predicate IsCancellation() {
      CancelledBeforeFile? || CancelledDuringTranscode?
    }
  }

  /** What the worker does between observing the cancellation flag and
      returning: log (main.py:204), or terminate ffmpeg, log and wait for it
      (main.py:239-241). */
  function CancelTail(e: Ending): seq<Step> {
    match e
    case CancelledBeforeFile(_) => [Emit(Log(CancelledByUser))]
    case CancelledDuringTranscode(i) => [Terminate(i), Emit(Log(ProcessTerminated)), Wait(i)]
    case _ => []
  }

  /** The worker's state as the other thread sees it: `cancel()` (main.py:194)
      is the only thing that changes it. */
  datatype WorkerState = WorkerState(job: Job, cancelled: bool)

  /** `cancel()` raises the flag and touches nothing else. */
  function Cancel(w: WorkerState): (r: WorkerState)
    ensures r.cancelled
    ensures r.job == w.job
  {
    w.(cancelled := true)
  }

  /** Calling `cancel()` again has no further effect. */
  lemma CancelIdempotent(w: WorkerState)
    ensures Cancel(Cancel(w)) == Cancel(w)
  {
  }

  /** The two places that read `_is_cancelled` (main.py:203 and 238) are
      numbered in the order the run reaches them.  `cancelAt == Some(k)`
      means `cancel()` has taken effect by the check numbered `k`; since the
      flag is never cleared, every later check sees it too.  `None` means it
      is never called during the run. */
  predicate Flagged(cancelAt: Option<nat>, check: nat) {
    cancelAt.Some? && cancelAt.value <= check
  }

  /** The worker's state as seen at successive flag reads, when nothing but
      `cancel()` acts on it between two reads. */
  predicate CancelOnly(states: seq<WorkerState>) {
    forall i | 0 < i < |states| :: states[i] == states[i - 1] || states[i] == Cancel(states[i - 1])
  }

  /** Once `cancel()` has raised the flag, every later read sees it. */
  lemma {:induction false} StaysCancelled(states: seq<WorkerState>, i: nat, j: nat)
    requires CancelOnly(states)
    requires i <= j < |states| && states[i].cancelled
    ensures states[j].cancelled
    decreases j - i
  {
    if i < j {
      StaysCancelled(states, i, j - 1);
      assert states[j] == states[j - 1] || states[j] == Cancel(states[j - 1]);
    }
  }

  /** The read, from `from` on, at which the flag is first seen raised.
      It justifies the `cancelAt` argument of `Run`: whatever the other thread
      does, the flag reads of a run are `Flagged(cancelAt, k)` for this
      `cancelAt`. */
  function CancelPoint(states: seq<WorkerState>, from: nat): (c: Option<nat>)
    requires CancelOnly(states)
    requires from <= |states|
    requires forall k | 0 <= k < from :: !states[k].cancelled
    ensures forall k | 0 <= k < |states| :: states[k].cancelled == Flagged(c, k)
    decreases |states| - from
  {
    if from == |states| then None
    else if states[from].cancelled then
      assert forall k | from <= k < |states| :: states[k].cancelled by {
        forall k | from <= k < |states| ensures states[k].cancelled {
          StaysCancelled(states, from, k);
        }
      }
      Some(from)
    else CancelPoint(states, from + 1)
  }

  /** The lines logged before the loop over ffmpeg's output stopped, the
      checks made so far, and whether it stopped because of the flag. */
  datatype Drained = Drained(logged: seq<Step>, checks: nat, cancelled: bool)

  /** The loop over ffmpeg's output (main.py:237-243), from line `j` on: the
      flag is checked after each line is read and before it is logged. */
  function Drain(lines: seq<string>, j: nat, checks: nat, cancelAt: Option<nat>): (d: Drained)
    requires j <= |lines|
    ensures d.checks >= checks
    decreases |lines| - j
  {
    if j == |lines| then Drained([], checks, false)
    else if Flagged(cancelAt, checks) then Drained([], checks + 1, true)
    else
      var rest := Drain(lines, j + 1, checks + 1, cancelAt);
      Drained([Emit(Log(ToolOutput(lines[j])))] + rest.logged, rest.checks, rest.cancelled)
  }

  /** The outcome of one iteration of the for loop: `stop` is the ending
      when the iteration leaves the loop. */
  datatype FileResult = FileResult(steps: seq<Step>, count: nat, checks: nat, stop: Option<Ending>)

  /** `steps` done first, then `r`. */
  function Prepend(steps: seq<Step>, r: FileResult): FileResult {
    r.(steps := steps + r.steps)
  }

  /** One iteration of the for loop (main.py:203-246) for the file with
      index `idx` of `total`, entering with `count` files processed and
      `checks` flag checks made: the flag check, then the attempt. */
  function ProcessFile(job: Job, total: nat, idx: nat, entry: Entry, count: nat, checks: nat,
                       cancelAt: Option<nat>): FileResult
    requires idx < total
  {
    if Flagged(cancelAt, checks) then
      FileResult(CancelTail(CancelledBeforeFile(idx)), count, checks + 1, Some(CancelledBeforeFile(idx)))
    else
      Attempt(job, total, idx, entry, count, checks + 1, cancelAt)
  }

  /** Probe the file and act on the plan (main.py:207-246). */
  function Attempt(job: Job, total: nat, idx: nat, entry: Entry, count: nat, checks: nat,
                   cancelAt: Option<nat>): FileResult
    requires idx < total
  {
    var src := Paths.Join(job.inputFolder, entry.name);
    var dst := Paths.Join(job.outputFolder, entry.name);
    var action := Plan(ProbeChannels(entry.world.probe), job.channels, FfmpegPath(job), src, dst);
    Prepend([Probe(idx, ProbeCommand(FfprobePath(job), src))],
            Act(total, idx, entry.name, job.channels, src, dst, action, entry.world, count, checks, cancelAt))
  }

  /** Carry out the plan for one file once it has been probed. */
  function Act(total: nat, idx: nat, name: string, channels: int, src: string, dst: string,
               action: Action, world: FileWorld, count: nat, checks: nat, cancelAt: Option<nat>): FileResult
    requires idx < total
  {
    match action
    case ReportUnreadable =>
      FileResult([Emit(Log(AnalyzeFailed(name)))], count, checks, None)
    case CopyAsIs =>
      CopyBranch(total, idx, name, channels, src, dst, world.copySucceeds, count, checks)
    case Reencode(args) =>
      TranscodeBranch(total, idx, name, channels, args, world.transcode, count, checks, cancelAt)
  }

  /** main.py:220-229: log, copy, count the file only if the copy
      succeeded, and report progress either way. */
  function CopyBranch(total: nat, idx: nat, name: string, channels: int, src: string, dst: string,
                      succeeds: bool, count: nat, checks: nat): FileResult
    requires idx < total
  {
    var copy := [Emit(Log(Copying(name, channels))), Copy(idx, src, dst)];
    var progress := Emit(Progress(Percent(idx, total)));
    if succeeds then FileResult(copy + [progress], count + 1, checks, None)
    else FileResult(copy + [Emit(Log(CopyFailed(name))), progress], count, checks, None)
  }

  /** main.py:231-246: log the command, start ffmpeg, relay its output
      while watching the flag, then wait for it, count the file and report
      progress.  The exit status is not consulted. */
  function TranscodeBranch(total: nat, idx: nat, name: string, channels: int, args: seq<string>,
                           reply: TranscodeReply, count: nat, checks: nat, cancelAt: Option<nat>): FileResult
    requires idx < total
  {
    var announce := [Emit(Log(Processing(name, channels))), Emit(Log(CommandLine(args)))];
    match reply
    case SpawnRaises =>
      FileResult(announce, count, checks, Some(Raised(SpawnFailed(idx))))
    case Runs(lines, readRaises) =>
      var d := Drain(lines, 0, checks, cancelAt);
      var ran := announce + [Spawn(idx, args)] + d.logged;
      if d.cancelled then
        FileResult(ran + CancelTail(CancelledDuringTranscode(idx)), count, d.checks,
                   Some(CancelledDuringTranscode(idx)))
      else if readRaises then
        FileResult(ran, count, d.checks, Some(Raised(OutputFailed(idx))))
      else
        FileResult(ran + [Wait(idx), Emit(Progress(Percent(idx, total)))], count + 1, d.checks, None)
  }

  datatype LoopResult = LoopResult(steps: seq<Step>, count: nat, checks: nat, ending: Ending)

  /** The for loop of main.py:202-246 from file `idx` on.  Every file adds
      at most one to the count, nothing inside the loop emits `finished`,
      and an exception inside the loop is never the listing's. */
  function Loop(job: Job, files: seq<Entry>, idx: nat, count: nat, checks: nat,
                cancelAt: Option<nat>): (r: LoopResult)
    requires idx <= |files|
    ensures count <= r.count <= count + (|files| - idx)
    ensures NoFinished(r.steps)
    ensures r.ending != Raised(ListingFailed)
    decreases |files| - idx
  {
    if idx == |files| then LoopResult([], count, checks, Completed)
    else
      var f := ProcessFile(job, |files|, idx, files[idx], count, checks, cancelAt);
      NoFinishedInFile(job, |files|, idx, files[idx], count, checks, cancelAt);
      assert Contained(f, count);
      if f.stop.Some? then LoopResult(f.steps, f.count, f.checks, f.stop.value)
      else
        var rest := Loop(job, files, idx + 1, f.count, f.checks, cancelAt);
        LoopResult(f.steps + rest.steps, rest.count, rest.checks, rest.ending)
  }

  /** A single iteration's result as the loop needs it: at most one more
      file counted, no `finished` emitted, and when it leaves the loop, it
      does so by `return` or by an exception other than the listing's. */
  predicate Contained(f: FileResult, count: nat) {
    && count <= f.count <= count + 1
    && NoFinished(f.steps)
    && f.stop != Some(Raised(ListingFailed))
    && f.stop != Some(Completed)
  }

  lemma NoFinishedInFile(job: Job, total: nat, idx: nat, entry: Entry, count: nat, checks: nat,
                         cancelAt: Option<nat>)
    requires idx < total
    ensures Contained(ProcessFile(job, total, idx, entry, count, checks, cancelAt), count)
  {
    if !Flagged(cancelAt, checks) {
      AttemptContained(job, total, idx, entry, count, checks + 1, cancelAt);
    }
  }

  lemma AttemptContained(job: Job, total: nat, idx: nat, entry: Entry, count: nat, checks: nat,
                         cancelAt: Option<nat>)
    requires idx < total
    ensures Contained(Attempt(job, total, idx, entry, count, checks, cancelAt), count)
  {
    var src := Paths.Join(job.inputFolder, entry.name);
    var dst := Paths.Join(job.outputFolder, entry.name);
    var action := Plan(ProbeChannels(entry.world.probe), job.channels, FfmpegPath(job), src, dst);
    ActContained(total, idx, entry.name, job.channels, src, dst, action, entry.world, count, checks, cancelAt);
  }

  lemma ActContained(total: nat, idx: nat, name: string, channels: int, src: string, dst: string,
                     action: Action, world: FileWorld, count: nat, checks: nat, cancelAt: Option<nat>)
    requires idx < total
    ensures Contained(Act(total, idx, name, channels, src, dst, action, world, count, checks, cancelAt), count)
  {
    if action.Reencode? {
      TranscodeContained(total, idx, name, channels, action.args, world.transcode, count, checks, cancelAt);
    }
  }

  lemma TranscodeContained(total: nat, idx: nat, name: string, channels: int, args: seq<string>,
                           reply: TranscodeReply, count: nat, checks: nat, cancelAt: Option<nat>)
    requires idx < total
    ensures Contained(TranscodeBranch(total, idx, name, channels, args, reply, count, checks, cancelAt), count)
  {
    TranscodeNoFinished(total, idx, name, channels, args, reply, count, checks, cancelAt);
    TranscodeCount(total, idx, name, channels, args, reply, count, checks, cancelAt);
  }

  lemma TranscodeNoFinished(total: nat, idx: nat, name: string, channels: int, args: seq<string>,
                            reply: TranscodeReply, count: nat, checks: nat, cancelAt: Option<nat>)
    requires idx < total
    ensures NoFinished(TranscodeBranch(total, idx, name, channels, args, reply, count, checks, cancelAt).steps)
  {
    if reply.Runs? {
      DrainLogsOnly(reply.lines, 0, checks, cancelAt);
    }
  }

  lemma TranscodeCount(total: nat, idx: nat, name: string, channels: int, args: seq<string>,
                       reply: TranscodeReply, count: nat, checks: nat, cancelAt: Option<nat>)
    requires idx < total
    ensures var t := TranscodeBranch(total, idx, name, channels, args, reply, count, checks, cancelAt);
            && count <= t.count <= count + 1
            && t.stop != Some(Raised(ListingFailed))
            && t.stop != Some(Completed)
  {
  }

  /** Everything the output loop records is a log line. */
  lemma {:induction false} DrainLogsOnly(lines: seq<string>, j: nat, checks: nat, cancelAt: Option<nat>)
    requires j <= |lines|
    ensures forall s | s in Drain(lines, j, checks, cancelAt).logged :: s.Emit? && s.signal.Log?
    decreases |lines| - j
  {
    if j < |lines| && !Flagged(cancelAt, checks) {
      DrainLogsOnly(lines, j + 1, checks + 1, cancelAt);
    }
  }

  /** How one turn of the loop is made of the iteration `f` and the rest
      `rest` of the loop after it: an iteration that stops the loop is the
      whole result; otherwise its steps come first and the rest decides
      everything else. */
  predicate LoopTurn(f: FileResult, rest: LoopResult, l: LoopResult) {
    && (f.stop.Some? ==>
          l.steps == f.steps && l.count == f.count && l.checks == f.checks && l.ending == f.stop.value)
    && (f.stop.None? ==>
          l.steps == f.steps + rest.steps && l.count == rest.count && l.checks == rest.checks && l.ending == rest.ending)
  }

  /** One turn of the loop, spelled out. */
  lemma LoopStep(job: Job, files: seq<Entry>, idx: nat, count: nat, checks: nat, cancelAt: Option<nat>)
    requires idx < |files|
    ensures var f := ProcessFile(job, |files|, idx, files[idx], count, checks, cancelAt);
            LoopTurn(f, Loop(job, files, idx + 1, f.count, f.checks, cancelAt), Loop(job, files, idx, count, checks, cancelAt))
  {
  }

  /** The result of one run: the trace, the final `processed_count` carried
      by `finished`, and why the run stopped. */
  datatype Outcome = Outcome(trace: seq<Step>, count: nat, ending: Ending)

  /** `FFmpegWorker.run`: list and filter the input folder, run the loop,
      and emit `finished(processed_count)` from the `finally` block on every
      way out.  An unreadable folder ends the run at once with nothing
      processed; an empty selection emits nothing but `finished(0)`. */
  function Run(job: Job, dir: Directory, cancelAt: Option<nat>): (r: Outcome)
    ensures |r.trace| >= 1 && r.trace[|r.trace| - 1] == Emit(Finished(r.count))
    ensures forall k :: 0 <= k < |r.trace| - 1 ==> !r.trace[k].IsFinished()
    ensures dir.ListingRaises? ==> r.ending == Raised(ListingFailed) && r.count == 0
    ensures dir.Listed? ==> r.count <= |Select(dir.entries)| && r.ending != Raised(ListingFailed)
    ensures dir.Listed? && Select(dir.entries) == [] ==>
              r.trace == [Emit(Finished(0))] && r.ending == Completed
  {
    match dir
    case ListingRaises => Outcome([Emit(Finished(0))], 0, Raised(ListingFailed))
    case Listed(entries) =>
      var l := Loop(job, Select(entries), 0, 0, 0, cancelAt);
      Outcome(l.steps + [Emit(Finished(l.count))], l.count, l.ending)
  }

  /** A listed run is its loop over the selected files followed by
      `finished` with the loop's count. */
  lemma RunOfListing(job: Job, entries: seq<Entry>, cancelAt: Option<nat>)
    ensures var r := Run(job, Listed(entries), cancelAt);
            var l := Loop(job, Select(entries), 0, 0, 0, cancelAt);
            r.trace == l.steps + [Emit(Finished(l.count))] && r.count == l.count && r.ending == l.ending
  {
  }
}

=== FILE: wrappers.dfy ===
/** The optional-value datatype used for results the source obtains from
    calls that may raise (a directory listing, an integer parse). */
module Wrappers {

  datatype Option<+T> = None | Some(value: T)
}
